=== FILE: README.md ===
# A verified model of the AI DJ mixer core

This project models the core of a browser DJ mixer as pure Dafny functions. That core has these parts:

- **Two decks and a crossfader.** Each deck plays a decoded PCM buffer and can loop, change rate and seek. An equal-power crossfader sits between the decks.
- **A per-deck effect chain.** It holds a filter, an echo with feedback, and a reverb.
- **Offline track analysis.** It estimates tempo, a key label, a waveform overview, an energy figure and a structural template.
- **Beat-matching helpers.**
- **An automated 61-step transition.** It sweeps the crossfader, the filters and an echo tail.
- **Next-track recommendations.** Library tracks are scored against the current track.
- **The recording's file name.**

## Modelling approach

JavaScript numbers are exact reals and unbounded integers here. Module `JsNumber` writes out the numeric semantics the code relies on:

- `Math.round` rounds halves upward.
- `Math.floor` and `Math.ceil`.
- `%` takes the sign of the dividend.
- The `Math.max(lo, Math.min(hi, x))` clamp.

Platform inputs become parameters:

- **The audio clock** (`context.currentTime`) is a `clock` argument.
- **`new Date().toISOString()`** is an `iso` string argument.
- **The `Math.random() * 10` draws** are a sequence of reals in `[0, 10)`, one per library track.
- **The square root of the overall mean square** is an `rms` argument tied to the signal by `rms * rms == MeanSquare(...)`.

The onset test compares frame RMS values. It is carried out on mean squares, and `TrackAnalysis.RmsComparison` proves this is the same test.

The platform's `AudioBuffer` is reduced to its first channel and its sample rate. That channel is the only one the code reads.

A deck's playback source node is kept as the parameters it was started with and the values later calls wrote into it. The source's `ended` event is a transition of its own (`SourceEnded`) that can arrive at any time.

The transition is modelled as the list of engine calls it makes, with each timer wait as a `Sleep` call. The engine state it leaves is obtained by running those calls in order.

Behaviour the model exhibits as the code is written:

- **A read at the instant of `play` is off when the rate is not 1** (`DeckTransport.ReadAtPlayInstant`). `play` sets `startTime = currentTime - position` without the playback rate. The position it reports is then the stored one times the rate, wrapped by the duration.
- **A stale `ended` event rewinds a deck.** Stopping a source also raises its `ended` event, and the handler does not check which source ended. After a pause, such an event rewinds a non-looping deck to 0. After a seek, it marks the deck stopped while the new source plays (`DeckTransport.StaleEndedAfterPause`, `DeckTransport.StaleEndedAfterSeek`).
- **A transition lasts one step longer than configured.** The loop runs `i = 0 .. 60` inclusive, so it waits 61 times for `duration * 1000 / 60` ms (`AiTransition.TransitionTakesOneExtraStep`).
- **The echo tail starts at step 43, not step 42.** 42/60 is exactly 0.7, which does not pass the strict `> 0.7` test.
- **The effect reset only restores the filter and the echo.** It leaves the filter Q and the reverb mix alone. Its last write is an echo write, so it sets the dry gain to 1 even while reverb is mixed in.
- **`seek` stores the position without clamping it** to the buffer.
- **The reset runs only after the loop completes.** The transition has no cancellation, and its reset is not in a `finally` block.
- **Echo and reverb writes do not commute.** The dry gain belongs to whichever of the two setters wrote last (`Effects.EchoReverbCommuteIff`).
- **A buffer shorter than the waveform resolution gives a waveform of `0 / 0` entries.** The block size is 0, so every entry is NaN. `None` stands for that all-NaN array.
- **The histogram is read in JavaScript object-key order.** Object keys that are canonical array indices (whole seconds) are enumerated first, in ascending order, before all other keys in insertion order. Ties in the histogram are therefore broken in that order, not by first occurrence (`TrackAnalysis.ModalIsMostCommon`).

## Model

| member | source | states |
|---|---|---|
| `JsNumber.Round` | src/frontend/src/lib/analysis/trackAnalysis.ts:135 | `Math.round` gives the integer within half a unit of its argument, halves going up |
| `JsNumber.Clamp` | src/frontend/src/lib/audio/AudioEngine.ts:160 | the clamp idiom lands in `[lo, hi]`, is the identity inside it and pins values outside it to the nearer end |
| `JsNumber.RemInt` | src/frontend/src/lib/analysis/trackAnalysis.ts:100 | integer `%` lies strictly inside `(-abs b, abs b)` with the sign of the dividend, and the dividend minus it is a multiple of the divisor |
| `JsNumber.RemRealRange` | src/frontend/src/lib/audio/AudioEngine.ts:132 | for a non-negative elapsed time and positive duration, `%` lands in `[0, duration)` and removes a whole number of durations |
| `Effects.Initial` | src/frontend/src/lib/audio/effects.ts:20-31 | a fresh chain is a 20 kHz lowpass with Q 1, no echo or reverb in the mix, and is already in the state the transition's reset writes |
| `Effects.SetFilter` | src/frontend/src/lib/audio/effects.ts:58-61 | the filter kind and cutoff take the given values and nothing else in the chain changes |
| `Effects.SetEcho` | src/frontend/src/lib/audio/effects.ts:62-67 | delay, feedback and echo mix take the given values, the dry gain plus half the echo mix is 1, filter and reverb are untouched |
| `Effects.SetReverb` | src/frontend/src/lib/audio/effects.ts:68-71 | the reverb mix takes the given value, the dry gain plus 0.3 of it is 1, filter and echo are untouched |
| `Effects.SettersIdempotent` | src/frontend/src/lib/audio/effects.ts:58-71 | repeating any setter with the same arguments changes nothing further |
| `Effects.EchoReverbCommuteIff` | src/frontend/src/lib/audio/effects.ts:62-71 | the dry gain follows whichever of echo and reverb wrote last; the two writes commute exactly when both leave the same dry gain |
| `Effects.Routing` | src/frontend/src/lib/audio/effects.ts:34-53 | the routing contains the two-way connection between echo delay and echo feedback |
| `Effects.RoutingShape` | src/frontend/src/lib/audio/effects.ts:34-53 | the input feeds only the filter, and the output is fed exactly by the dry, echo-mix and reverb-mix gains |
| `Effects.EdgesDeepen` | src/frontend/src/lib/audio/effects.ts:35-53 | apart from echo feedback, every connection leads strictly downstream |
| `Effects.WalkWithoutFeedbackDeepens` | src/frontend/src/lib/audio/effects.ts:35-53 | a walk through the chain that avoids the feedback connection never returns to where it started |
| `Effects.OnlyCycleIsEchoFeedback` | src/frontend/src/lib/audio/effects.ts:39-40 | every cycle in the chain passes through the echo feedback into the delay line |
| `Effects.EchoLoopIsCycle` | src/frontend/src/lib/audio/effects.ts:39-40 | delay to feedback to delay is a closed walk of the routing |
| `DeckTransport.NewDeck` | src/frontend/src/lib/audio/AudioEngine.ts:40-67 | a new deck is empty, stopped, reads position 0 at any clock, has rate 1 and no loop |
| `DeckTransport.Stop` | src/frontend/src/lib/audio/AudioEngine.ts:117-125 | the playback source is torn down and the deck stops; position, rate and loop settings survive |
| `DeckTransport.Load` | src/frontend/src/lib/audio/AudioEngine.ts:69-75 | the deck holds the new buffer, is stopped at 0, and its loop end is the buffer's duration; rate, loop flag and effects survive |
| `DeckTransport.Play` | src/frontend/src/lib/audio/AudioEngine.ts:77-107 | refused without a buffer or while playing; otherwise the deck plays from its stored position with the current rate and loop flag, the new source loops between the deck's loop bounds only when looping is on, and nothing else changes |
| `DeckTransport.CurrentPosition` | src/frontend/src/lib/audio/AudioEngine.ts:127-134 | a deck that is not playing a buffer reports its stored position |
| `DeckTransport.PositionWithinBuffer` | src/frontend/src/lib/audio/AudioEngine.ts:127-134 | while a buffer plays forward in time, the reported position lies inside the buffer |
| `DeckTransport.ReadAtPlayInstant` | src/frontend/src/lib/audio/AudioEngine.ts:104-132 | at the instant playback starts, the reported position is the stored one times the rate, wrapped by the duration |
| `DeckTransport.Pause` | src/frontend/src/lib/audio/AudioEngine.ts:109-115 | a playing deck stores the position it reports and stops, changing nothing else; a stopped deck is untouched |
| `DeckTransport.PauseFreezesPosition` | src/frontend/src/lib/audio/AudioEngine.ts:109-129 | after a pause the reported position no longer moves with the clock |
| `DeckTransport.PauseThenPlayResumes` | src/frontend/src/lib/audio/AudioEngine.ts:104-133 | at rate 1, a pause followed by a play at the same instant resumes exactly where playback was |
| `DeckTransport.Seek` | src/frontend/src/lib/audio/AudioEngine.ts:136-149 | the stored position becomes the requested one without clamping; a playing deck keeps playing from there, a stopped one stays stopped; buffer, rate, loop and effects survive |
| `DeckTransport.SeekWhileStoppedReads` | src/frontend/src/lib/audio/AudioEngine.ts:136-149 | a stopped deck reports the sought position at every later clock |
| `DeckTransport.SetPlaybackRate` | src/frontend/src/lib/audio/AudioEngine.ts:151-157 | the rate is stored and written into a live source without restarting it; nothing else changes |
| `DeckTransport.SetLoop` | src/frontend/src/lib/audio/AudioEngine.ts:169-183 | the loop flag is set, each bound changes only when supplied, and a live source takes the flag and, when looping is on, the bounds; transport is untouched |
| `DeckTransport.SourceEnded` | src/frontend/src/lib/audio/AudioEngine.ts:97-102 | a looping deck ignores the event; otherwise the deck stops and rewinds to 0 while the source reference stays |
| `DeckTransport.StaleEndedAfterPause` | src/frontend/src/lib/audio/AudioEngine.ts:97-114 | the `ended` event of the source a pause stopped wipes the position the pause stored |
| `DeckTransport.StaleEndedAfterSeek` | src/frontend/src/lib/audio/AudioEngine.ts:97-147 | the `ended` event of the source a seek replaced leaves the deck marked stopped at 0 with a live source |
| `DeckTransport.OnlyPlayStartsPlayback` | src/frontend/src/lib/audio/AudioEngine.ts:106 | no transition except play makes a stopped deck play, and play does so exactly when a buffer is loaded |
| `AudioEngine.WithDeck` | src/frontend/src/lib/audio/AudioEngine.ts:70 | picking a deck by id and writing it back changes that deck only |
| `AudioEngine.NewEngine` | src/frontend/src/lib/audio/AudioEngine.ts:21-38 | a new engine holds two fresh decks and the crossfader in the middle |
| `AudioEngine.LoadTrack` | src/frontend/src/lib/audio/AudioEngine.ts:69-75 | the chosen deck is the deck-level load of its old state: it holds the buffer, stopped at 0 with no source and the loop end at its duration, keeping rate, loop flag, loop start and effects; the other deck and the crossfader are untouched |
| `AudioEngine.Play` | src/frontend/src/lib/audio/AudioEngine.ts:77-107 | nothing changes without a buffer or while playing; otherwise the chosen deck plays from its stored position with `startTime = clock - position` and a source started from its rate and loop settings, everything else on it kept, the rest untouched |
| `AudioEngine.Pause` | src/frontend/src/lib/audio/AudioEngine.ts:109-115 | a stopped deck is left as it is; a playing one is stopped with no source, holding the position it reported, everything else on it kept |
| `AudioEngine.Stop` | src/frontend/src/lib/audio/AudioEngine.ts:117-125 | the chosen deck's source is torn down and it stops; position, rate, loop settings, buffer and effects stay |
| `AudioEngine.GetCurrentPosition` | src/frontend/src/lib/audio/AudioEngine.ts:127-134 | a deck that is not playing reports its stored position |
| `AudioEngine.Seek` | src/frontend/src/lib/audio/AudioEngine.ts:136-149 | the chosen deck is at the requested position, unclamped, and keeps its playing state, restarting from there when playing; buffer, rate, loop settings and effects stay |
| `AudioEngine.SetPlaybackRate` | src/frontend/src/lib/audio/AudioEngine.ts:151-157 | the chosen deck and its live source, if any, take the rate; nothing else on the deck changes |
| `AudioEngine.SetCrossfader` | src/frontend/src/lib/audio/AudioEngine.ts:159-160 | the stored position is the requested one clamped to `[0, 1]`, and neither deck changes |
| `AudioEngine.SetCrossfaderIdempotent` | src/frontend/src/lib/audio/AudioEngine.ts:159-160 | repeating a crossfader write changes nothing, and writing back the stored value is a no-op |
| `AudioEngine.SetLoop` | src/frontend/src/lib/audio/AudioEngine.ts:169-183 | the chosen deck's loop settings change as requested, a live source takes the flag and, when looping, the bounds; nothing else on the deck changes |
| `AudioEngine.SetFilter` | src/frontend/src/lib/audio/AudioEngine.ts:185-188 | only the chosen deck's effect chain receives the filter write |
| `AudioEngine.SetEcho` | src/frontend/src/lib/audio/AudioEngine.ts:190-193 | only the chosen deck's effect chain receives the echo write |
| `AudioEngine.SetReverb` | src/frontend/src/lib/audio/AudioEngine.ts:195-198 | only the chosen deck's effect chain receives the reverb write |
| `AudioEngine.SourceEnded` | src/frontend/src/lib/audio/AudioEngine.ts:97-102 | a looping deck ignores the event; otherwise the deck stops and rewinds to 0 with nothing else on it changed; the event never starts playback and touches only its own deck |
| `AudioEngine.GetDeckState` | src/frontend/src/lib/audio/AudioEngine.ts:220-234 | the snapshot copies the deck's buffer, playing flag, rate and loop settings, reports the derived position, and a playing deck in it has a buffer |
| `AudioEngine.SnapshotAfterLoad` | src/frontend/src/lib/audio/AudioEngine.ts:69-75 | right after a load the snapshot shows the new buffer, stopped at 0, with the loop ending at the buffer's duration |
| `AudioEngine.SnapshotAfterPause` | src/frontend/src/lib/audio/AudioEngine.ts:109-115 | after a pause the snapshot shows a stopped deck holding the position read at the pause, at any later clock |
| `AudioEngine.SnapshotAfterSetLoop` | src/frontend/src/lib/audio/AudioEngine.ts:169-183 | the snapshot shows the loop settings `setLoop` wrote, and the other deck's snapshot is unchanged |
| `Beatmatch.SyncRate` | src/frontend/src/lib/mix/beatmatch.ts:1-4 | with both tempos known, the source tempo times the rate is the target tempo; an unknown tempo gives rate 1 |
| `Beatmatch.SyncRateRoundTrip` | src/frontend/src/lib/mix/beatmatch.ts:1-4 | syncing one way and back multiplies to the identity rate |
| `Beatmatch.Quantize` | src/frontend/src/lib/mix/beatmatch.ts:6-10 | the snapped position lies within half a grid line of the input |
| `Beatmatch.QuantizeOnNearestLine` | src/frontend/src/lib/mix/beatmatch.ts:6-10 | the snapped position is a whole number of grid lines and within half a grid line of the input |
| `Beatmatch.QuantizeIdempotent` | src/frontend/src/lib/mix/beatmatch.ts:6-10 | snapping an already snapped position leaves it where it is |
| `Beatmatch.CalculateBeatGrid` | src/frontend/src/lib/mix/beatmatch.ts:12-21 | a non-positive duration gives no beats; otherwise the grid is exactly the beats `k * 60 / bpm` before the end, strictly increasing, as many as the duration in beats rounded up, and at tempo 0 only the beat at 0 |
| `Beatmatch.BeatCountBounds` | src/frontend/src/lib/mix/beatmatch.ts:16 | that many beats reach the end and one fewer do not |
| `TrackAnalysis.RmsComparison` | src/frontend/src/lib/analysis/trackAnalysis.ts:55-57 | the onset test on RMS values holds exactly when its squared form holds on mean squares |
| `TrackAnalysis.OnsetsFromExactly` | src/frontend/src/lib/analysis/trackAnalysis.ts:49-61 | from any frame on, the loop collects exactly the later onset frames, in increasing order |
| `TrackAnalysis.OnsetSamples` | src/frontend/src/lib/analysis/trackAnalysis.ts:49-61 | an offset is collected exactly when it starts a visited frame whose RMS exceeds 1.5 times the previous one and 0.1 |
| `TrackAnalysis.OnsetTimes` | src/frontend/src/lib/analysis/trackAnalysis.ts:58 | onset times are one per onset frame and strictly increasing |
| `TrackAnalysis.Intervals` | src/frontend/src/lib/analysis/trackAnalysis.ts:66-69 | one interval fewer than onsets, all positive when the onsets increase |
| `TrackAnalysis.Tenths` | src/frontend/src/lib/analysis/trackAnalysis.ts:74 | each histogram key is its interval rounded to the nearest tenth |
| `TrackAnalysis.KeysOf` | src/frontend/src/lib/analysis/trackAnalysis.ts:72-76 | the histogram holds exactly the rounded intervals, index-like keys kept ascending and apart from the others |
| `TrackAnalysis.EnumerationOrder` | src/frontend/src/lib/analysis/trackAnalysis.ts:80 | the entries visited are exactly the histogram's keys |
| `TrackAnalysis.PickModalSpec` | src/frontend/src/lib/analysis/trackAnalysis.ts:78-85 | the scan keeps the starting choice unless some key beats its count, and then ends on the first key, in visiting order, with the greatest count |
| `TrackAnalysis.ModalIsMostCommon` | src/frontend/src/lib/analysis/trackAnalysis.ts:72-85 | with no intervals the choice is 0.5 s; otherwise it is a most common rounded interval and the first such key visited |
| `TrackAnalysis.BpmFromTenths` | src/frontend/src/lib/analysis/trackAnalysis.ts:87-88 | the tempo lies in `[60, 180]`, is the rounded `60 / interval` when that is in range, and a zero interval gives 180 |
| `TrackAnalysis.DetectBPM` | src/frontend/src/lib/analysis/trackAnalysis.ts:40-89 | the tempo is in `[60, 180]` and is 120 when fewer than two onsets were found |
| `TrackAnalysis.DetectBpmFromMostCommonInterval` | src/frontend/src/lib/analysis/trackAnalysis.ts:63-88 | with two onsets or more the tempo comes from a most common rounded interval, and all intervals are positive |
| `TrackAnalysis.MeanAbs` | src/frontend/src/lib/analysis/trackAnalysis.ts:97-98 | the mean absolute amplitude is never negative |
| `TrackAnalysis.KeyIndex` | src/frontend/src/lib/analysis/trackAnalysis.ts:100 | the pitch class index lies in `[0, 12)` |
| `TrackAnalysis.ModeIndex` | src/frontend/src/lib/analysis/trackAnalysis.ts:101 | the mode index lies in `[0, 2)` |
| `TrackAnalysis.DetectKey` | src/frontend/src/lib/analysis/trackAnalysis.ts:91-104 | the label is one of the 24 pitch-class-and-mode names |
| `TrackAnalysis.Block` | src/frontend/src/lib/analysis/trackAnalysis.ts:108-114 | each block holds exactly `floor(length / samples)` samples and lies inside the signal |
| `TrackAnalysis.GenerateWaveform` | src/frontend/src/lib/analysis/trackAnalysis.ts:106-124 | the overview has `samples` entries, entry `i` the mean absolute amplitude of block `i`; it is all NaN exactly when the signal is shorter than `samples` |
| `TrackAnalysis.BlockLevels` | src/frontend/src/lib/analysis/trackAnalysis.ts:111-121 | the outer loop yields one block mean per entry |
| `TrackAnalysis.BlockSum` | src/frontend/src/lib/analysis/trackAnalysis.ts:116-118 | the inner loop sums the absolute amplitudes of the block |
| `TrackAnalysis.LevelOfBlockSum` | src/frontend/src/lib/analysis/trackAnalysis.ts:113-120 | the `min(start + blockSize, length)` end never cuts a block short |
| `TrackAnalysis.WaveformEntryBounded` | src/frontend/src/lib/analysis/trackAnalysis.ts:106-124 | for a signal within full scale every entry lies in `[0, 1]` |
| `TrackAnalysis.CalculateEnergy` | src/frontend/src/lib/analysis/trackAnalysis.ts:126-136 | the energy is the nearest whole percent of the RMS and never negative |
| `TrackAnalysis.EnergyAtMostHundred` | src/frontend/src/lib/analysis/trackAnalysis.ts:126-136 | a signal within full scale has energy at most 100 |
| `TrackAnalysis.InferStructure` | src/frontend/src/lib/analysis/trackAnalysis.ts:138-194 | a positive duration gives intro, verse, drop, verse, outro, contiguous and each non-empty, intro and outro `min(15%, 30 s)` long, the drop from 40% to 60%, energies scaled 0.6/0.8/1.2/0.8/0.5; otherwise no segments |
| `TrackAnalysis.StructureCoversDuration` | src/frontend/src/lib/analysis/trackAnalysis.ts:143-191 | the segment lengths add up to the track's duration |
| `TrackAnalysis.AnalyzeTrack` | src/frontend/src/lib/analysis/trackAnalysis.ts:16-38 | progress rises strictly through six reports to 1; the result carries each step's output, and the waveform has 1000 entries and is all NaN exactly for a track shorter than 1000 samples |
| `AiTransition.Progress` | src/frontend/src/lib/mix/aiTransition.ts:19 | progress `i / 60` lies in `[0, 1]` over the loop's range |
| `AiTransition.StepCalls` | src/frontend/src/lib/mix/aiTransition.ts:19-38 | each iteration first moves the crossfader, ends by waiting one step, and moves the crossfader nowhere else |
| `AiTransition.StepFlags` | src/frontend/src/lib/mix/aiTransition.ts:26-36 | with filtering on, the lowpass on the outgoing deck and the highpass on the incoming deck come right after the crossfade; with filtering off no filter is written, and with echo off no echo |
| `AiTransition.LoopCalls` | src/frontend/src/lib/mix/aiTransition.ts:18-39 | `n` iterations make at least two calls each, start with the first crossfade and end on a wait, and no iterations make no calls |
| `AiTransition.ResetCalls` | src/frontend/src/lib/mix/aiTransition.ts:41-45 | the reset is four writes, none a wait or a crossfade, with filters back at a 20 kHz lowpass and echoes at zero feedback and mix |
| `AiTransition.Transition` | src/frontend/src/lib/mix/aiTransition.ts:15-45 | a transition opens on the first crossfade, makes at least two calls per step for 61 steps and ends on the four reset writes |
| `AiTransition.StepSleepsOnce` | src/frontend/src/lib/mix/aiTransition.ts:38 | each iteration waits exactly once, for one step duration |
| `AiTransition.LoopSleeps` | src/frontend/src/lib/mix/aiTransition.ts:18-39 | `n` iterations wait `n` times, each for one step duration |
| `AiTransition.TransitionTakesOneExtraStep` | src/frontend/src/lib/mix/aiTransition.ts:15-45 | a transition waits 61 times for one step each, one step longer than the configured duration |
| `AiTransition.SweepsAreMonotone` | src/frontend/src/lib/mix/aiTransition.ts:22-29 | over the loop the crossfader moves strictly toward the incoming deck, the lowpass falls strictly within `[2000, 20000]` and the highpass rises strictly within `[20, 200]` |
| `AiTransition.SweepEndpoints` | src/frontend/src/lib/mix/aiTransition.ts:22-29 | the sweeps start fully on the outgoing deck at 20 kHz / 20 Hz and end fully on the incoming deck at 2 kHz / 200 Hz |
| `AiTransition.EchoTail` | src/frontend/src/lib/mix/aiTransition.ts:33-36 | with echo on, an iteration writes the echo exactly from step 43 on, just before its wait; every echo write goes to the outgoing deck with delay 0.375 s, feedback 0.4 and mix `progress - 0.7`, which lies in `(0, 0.3]` |
| `AiTransition.Apply` | src/frontend/src/lib/mix/aiTransition.ts:23-44 | no call the transition makes touches transport, filter Q or reverb mix, or breaks validity; a crossfade moves the crossfader to the clamped target and no other call moves it |
| `AiTransition.Run` | src/frontend/src/lib/mix/aiTransition.ts:18-45 | any sequence of those calls keeps transport and validity, and without crossfader calls keeps the crossfader |
| `AiTransition.LoopEndsOnLastPosition` | src/frontend/src/lib/mix/aiTransition.ts:18-38 | after the loop the crossfader is where the last iteration put it |
| `AiTransition.ResetRestores` | src/frontend/src/lib/mix/aiTransition.ts:41-45 | the reset puts both decks' filter and echo back to the chain's initial values, whatever the loop left there |
| `AiTransition.TransitionOutcome` | src/frontend/src/lib/mix/aiTransition.ts:9-46 | a transition ends fully on the incoming deck, keeps both decks' transport, and leaves both decks' effects at their initial values except filter Q and reverb mix |
| `Recommend.BpmPoints` | src/frontend/src/lib/recommendations/recommend.ts:24-33 | tempo points are one of 40, 25, 10, 0 |
| `Recommend.BpmPointsNonIncreasing` | src/frontend/src/lib/recommendations/recommend.ts:24-33 | a closer tempo never earns fewer points |
| `Recommend.KeyPoints` | src/frontend/src/lib/recommendations/recommend.ts:36-39 | key points are 30 or 0 |
| `Recommend.EnergyPoints` | src/frontend/src/lib/recommendations/recommend.ts:42-49 | energy points are 20, 15 or 0 |
| `Recommend.Score` | src/frontend/src/lib/recommendations/recommend.ts:19-55 | a score entry belongs to the track scored |
| `Recommend.ScoreMatchesReasons` | src/frontend/src/lib/recommendations/recommend.ts:19-55 | each reason is listed exactly when its condition holds, the score minus the random term is the points the reasons name plus 10 for a tempo gap in `[10, 20)`, and the score lies in `[0, 100)` |
| `Recommend.EligibleIndices` | src/frontend/src/lib/recommendations/recommend.ts:17-18 | the candidates' library positions, strictly increasing, each a candidate, and every candidate's position among them |
| `Recommend.ScoreAll` | src/frontend/src/lib/recommendations/recommend.ts:17-55 | entry `j` is the `j`-th candidate in library order scored with its own draw, so one entry per candidate in library order; each entry is in `[0, 100)`, and every candidate is scored |
| `Recommend.ScoredOnce` | src/frontend/src/lib/recommendations/recommend.ts:17-55 | in a library without repeated ids no scored entry occurs twice |
| `Recommend.SortByScore` | src/frontend/src/lib/recommendations/recommend.ts:56 | the ranking is in non-increasing score order and a permutation of the scored tracks |
| `Recommend.SortKeepsEntries` | src/frontend/src/lib/recommendations/recommend.ts:56 | sorting neither adds nor drops an entry |
| `Recommend.SliceEnd` | src/frontend/src/lib/recommendations/recommend.ts:58 | `slice(0, count)` keeps `min(count, n)` entries, or `max(n + count, 0)` for a negative count |
| `Recommend.RecommendNextTrack` | src/frontend/src/lib/recommendations/recommend.ts:10-59 | no analysis gives no recommendations; otherwise `slice(0, count)` of the eligible tracks' entries, taken from the scored entries without repetition beyond theirs, at most `count`, each eligible, in non-increasing score order |
| `Recommend.DistinctLibraryDistinctPicks` | src/frontend/src/lib/recommendations/recommend.ts:17-58 | with distinct ids in the library no track is recommended twice |
| `Recommend.RepeatedTrackRepeats` | src/frontend/src/lib/recommendations/recommend.ts:17-58 | a candidate listed twice with equal draws is recommended twice, so distinct ids are needed for distinct picks |
| `Recommend.RecommendationsAreTop` | src/frontend/src/lib/recommendations/recommend.ts:56-58 | a candidate left out scores no higher than any kept one, and a `count` of at least the library size keeps every candidate |
| `Recommend.TopOfRanking` | src/frontend/src/lib/recommendations/recommend.ts:56-58 | in the first `count` of a ranking, a left-out entry scores no higher than any kept one, and a `count` covering the list keeps everything |
| `Download.Sanitize` | src/frontend/src/utils/download.ts:14 | every ASCII letter or digit is kept and every other character becomes `_` |
| `Download.SafeName` | src/frontend/src/utils/download.ts:14 | an absent or empty title gives `mix`; otherwise the sanitised title; always non-empty and made of letters, digits and `_` |
| `Download.SafeNameIdempotent` | src/frontend/src/utils/download.ts:14 | sanitising a safe name again changes nothing |
| `Download.DashSeparators` | src/frontend/src/utils/download.ts:13 | colons and dots become dashes, everything else stays |
| `Download.DropLastFive` | src/frontend/src/utils/download.ts:13 | `slice(0, -5)` drops the last five characters, or everything when there are fewer |
| `Download.Timestamp` | src/frontend/src/utils/download.ts:13 | the timestamp contains no colon and no dot |
| `Download.TimestampOfIso` | src/frontend/src/utils/download.ts:13 | for an ISO-8601 time, the timestamp is its date and time to the second with dashes for colons, 19 characters |
| `Download.GenerateMixFilename` | src/frontend/src/utils/download.ts:12-16 | the name is the safe name, `_`, the timestamp and `.webm`, in that order, and the part between the `_` and the extension is exactly the timestamp |
| `Download.NameRecoverable` | src/frontend/src/utils/download.ts:12-16 | for an ISO-8601 time, the safe name is everything before the last 25 characters of the file name |

## Left out

- **Web Audio plumbing.** The model leaves out gain, analyser and master nodes, `context.resume()`, source `disconnect`, `getAnalyserData`, `startRecording`, `stopRecording` and `dispose`. They are platform calls that carry no state of the mixer's own.
- **The crossfader's gain curves.** The cosine and sine gains of the equal-power curve (AudioEngine.ts lines 162-166) are not modelled: this is trigonometry on floats written to platform gain nodes. The deck snapshot's `volume` and `cuePoints` are left out too; the engine never writes either of them.
- **The reverb impulse.** It is random noise generated into a platform buffer (effects.ts lines 75-88), and it affects no mixer state.
- **Floating point.** All arithmetic is exact. Rounding of binary floats, NaN and infinities are not modelled, apart from the explicit cases named below. The beat grid accumulates `time += beat` exactly.
- **`Math.sqrt`.** It is not computed. The onset test works on mean squares, and the overall RMS is an input tied to the mean square.
- **Timers and concurrency.** The transition's `setTimeout` waits are `Sleep` calls with no clock behind them. Engine calls made by someone else while a transition sleeps are not interleaved. An exception inside the loop would skip the reset, because the reset is not in a `finally`; engine calls cannot fail in this model, so that path does not arise.
- **Timing of the `ended` event.** `SourceEnded` may be applied at any point, with no relation to the buffer's length or to the clock.
- **Progress reporting and `async`.** `TrackAnalysis.AnalyzeTrack` returns the progress reports as a list instead of calling a callback, and the `await` on tempo detection is dropped.
- **Multi-channel audio.** Only the first channel of a buffer is kept, because it is the only one the analysis reads. A buffer is assumed non-empty with a positive sample rate, which the platform guarantees for decoded audio.
- **Characters.** A Dafny `char` is one Unicode character, while the title is sanitised per UTF-16 unit. So a character outside the Basic Multilingual Plane becomes one `_` in the model but two in `download.ts`.
- **Other dates.** `Download.TimestampOfIso` and `Download.NameRecoverable` are stated for the 24-character `toISOString` form, which covers years 0 to 9999. Other years have a longer form and are not covered by those lemmas; `Download.GenerateMixFilename` itself takes any string.
- Beatmatch.Quantize: requires a non-zero tempo and subdivision. With either one zero, `quantizePosition` divides by zero and returns NaN, which is not modelled. Its default subdivision of 4 is not modelled either: the argument is always passed.
- Beatmatch.CalculateBeatGrid: requires a non-negative tempo when the duration is positive. At a negative tempo and a positive duration the loop of `calculateBeatGrid` never ends; with a non-positive duration it returns no beats at any tempo, and the model does too.
- Recommend.RecommendNextTrack: `count` is an integer, and its default of 5 is not applied (`DefaultCount` names it). A fractional count, which `slice` would truncate, is not modelled. The random term comes from an input sequence indexed by library position. `recommendNextTrack` instead draws it once per eligible track, in library order, so the two differ only in which draws are skipped.
- Recommend.SortByScore: its contract states order and permutation, not stability. It is an insertion sort that keeps equal scores in input order, as the platform's stable `sort` does.
- TrackAnalysis.GenerateWaveform: the NaN entries of a signal shorter than the resolution are one `None` instead of an array of NaNs. The `samples` argument keeps its default of 1000 in `AnalyzeTrack`.
- TrackAnalysis.CalculateEnergy: the RMS is an argument instead of `Math.sqrt` of the mean square.

=== FILE: ai_transition.dfy ===
/** The automated transition of `aiTransition.ts`: sixty-one evenly spaced
    steps that sweep the crossfader from one deck to the other, optionally
    sweep a filter on each deck and bring in an echo tail, followed by an
    effect reset. The transition is modelled as the sequence of engine calls
    it makes, with each timer wait as a call of its own, and the engine
    state it leaves is obtained by running those calls in order. */
module AiTransition {
  import opened JsNumber
  import Effects
  import AudioEngine

  datatype TransitionConfig = TransitionConfig(duration: real, useFilter: bool, useEcho: bool)

  /** One engine call the transition makes, or one wait of `ms`
      milliseconds between steps. */
  datatype Call =
    | Crossfade(position: real)
    | Filter(deck: AudioEngine.DeckId, kind: Effects.FilterType, frequency: real)
    | Echo(deck: AudioEngine.DeckId, time: real, feedback: real, mix: real)
    | Sleep(ms: real)

  const Steps: nat := 60

  /** The fraction of the transition reached at step `i`. */
  function Progress(i: nat): (p: real)
    ensures i <= Steps ==> 0.0 <= p <= 1.0
    ensures p * Steps as real == i as real
  {
    i as real / Steps as real
  }

  function StepDuration(c: TransitionConfig): real
  {
    c.duration * 1000.0 / Steps as real
  }

  /** Crossfader target at step `i`: toward B when leaving A, toward A
      otherwise. */
  function CrossfadeAt(fromDeck: AudioEngine.DeckId, i: nat): real
  {
    if fromDeck == AudioEngine.A then Progress(i) else 1.0 - Progress(i)
  }

  /** Cutoff of the outgoing deck's lowpass at step `i`. */
  function LowpassAt(i: nat): real
  {
    20000.0 - Progress(i) * 18000.0
  }

  /** Cutoff of the incoming deck's highpass at step `i`. */
  function HighpassAt(i: nat): real
  {
    20.0 + Progress(i) * 180.0
  }

  const EchoThreshold: real := 0.7

  /** The echo mix `((progress - 0.7) / 0.3) * 0.3`. */
  function EchoMixAt(i: nat): real
  {
    ((Progress(i) - EchoThreshold) / 0.3) * 0.3
  }

  /** The calls of loop iteration `i`. */
  function StepCalls(fromDeck: AudioEngine.DeckId, toDeck: AudioEngine.DeckId, c: TransitionConfig, i: nat): (calls: seq<Call>)
    ensures |calls| > 0 && calls[0] == Crossfade(CrossfadeAt(fromDeck, i))
    ensures calls[|calls| - 1] == Sleep(StepDuration(c))
    ensures forall k :: 0 < k < |calls| ==> !calls[k].Crossfade?
  {
    [Crossfade(CrossfadeAt(fromDeck, i))]
    + (if c.useFilter
       then [Filter(fromDeck, Effects.Lowpass, LowpassAt(i)), Filter(toDeck, Effects.Highpass, HighpassAt(i))]
       else [])
    + (if c.useEcho && Progress(i) > EchoThreshold then [Echo(fromDeck, 0.375, 0.4, EchoMixAt(i))] else [])
    + [Sleep(StepDuration(c))]
  }

  /** The filter pair is written exactly when filtering is on, as a lowpass
      on the outgoing deck then a highpass on the incoming one right after
      the crossfade; no echo is written when echo is off. */
  lemma StepFlags(fromDeck: AudioEngine.DeckId, toDeck: AudioEngine.DeckId, c: TransitionConfig, i: nat)
    ensures var calls := StepCalls(fromDeck, toDeck, c, i);
            c.useFilter ==> |calls| >= 4 && calls[1] == Filter(fromDeck, Effects.Lowpass, LowpassAt(i))
                            && calls[2] == Filter(toDeck, Effects.Highpass, HighpassAt(i))
    ensures var calls := StepCalls(fromDeck, toDeck, c, i);
            !c.useFilter ==> forall k :: 0 <= k < |calls| ==> !calls[k].Filter?
    ensures var calls := StepCalls(fromDeck, toDeck, c, i);
            !c.useEcho ==> forall k :: 0 <= k < |calls| ==> !calls[k].Echo?
  {
  }

  /** Iterations `0 .. n - 1` of the loop, in order: at least two calls per
      iteration, opening with the first crossfade and closing on a wait. */
  function LoopCalls(fromDeck: AudioEngine.DeckId, toDeck: AudioEngine.DeckId, c: TransitionConfig, n: nat): (calls: seq<Call>)
    ensures |calls| >= 2 * n
    ensures n == 0 <==> calls == []
    ensures n > 0 ==> calls[0] == Crossfade(CrossfadeAt(fromDeck, 0))
    ensures n > 0 ==> calls[|calls| - 1] == Sleep(StepDuration(c))
  {
    if n == 0 then [] else LoopCalls(fromDeck, toDeck, c, n - 1) + StepCalls(fromDeck, toDeck, c, n - 1)
  }

  /** The effect reset after the loop: both filters back to a 20 kHz
      lowpass, both echoes silenced. */
  function ResetCalls(fromDeck: AudioEngine.DeckId, toDeck: AudioEngine.DeckId): (calls: seq<Call>)
    ensures |calls| == 4
    ensures forall k :: 0 <= k < |calls| ==> !calls[k].Sleep? && !calls[k].Crossfade?
    ensures forall k :: 0 <= k < |calls| && calls[k].Filter? ==> calls[k].kind == Effects.Lowpass && calls[k].frequency == 20000.0
    ensures forall k :: 0 <= k < |calls| && calls[k].Echo? ==> calls[k].feedback == 0.0 && calls[k].mix == 0.0
  {
    [ Filter(fromDeck, Effects.Lowpass, 20000.0), Filter(toDeck, Effects.Lowpass, 20000.0),
      Echo(fromDeck, 0.375, 0.0, 0.0), Echo(toDeck, 0.375, 0.0, 0.0) ]
  }

  /** Every call of a transition: steps `0 .. 60` inclusive, then the reset;
      it opens on the first crossfade and ends on the four reset writes. */
  function Transition(fromDeck: AudioEngine.DeckId, toDeck: AudioEngine.DeckId, c: TransitionConfig): (calls: seq<Call>)
    ensures |calls| >= 2 * (Steps + 1) + 4
    ensures calls[0] == Crossfade(CrossfadeAt(fromDeck, 0))
    ensures calls[|calls| - 4 ..] == ResetCalls(fromDeck, toDeck)
  {
    LoopCalls(fromDeck, toDeck, c, Steps + 1) + ResetCalls(fromDeck, toDeck)
  }

  /** One call against the engine: it keeps transport and validity, and
      only a crossfade moves the crossfader, to the clamped target. */
  function Apply(e: AudioEngine.Engine, call: Call): (r: AudioEngine.Engine)
    ensures KeepsTransport(e, r)
    ensures AudioEngine.Valid(e) ==> AudioEngine.Valid(r)
    ensures call.Crossfade? ==> r.crossfader == Clamp(0.0, 1.0, call.position)
    ensures !call.Crossfade? ==> r.crossfader == e.crossfader
  {
    match call
    case Crossfade(x) => AudioEngine.SetCrossfader(e, x)
    case Filter(id, kind, f) => AudioEngine.SetFilter(e, id, kind, f)
    case Echo(id, t, fb, mix) => AudioEngine.SetEcho(e, id, t, fb, mix)
    case Sleep(_) => e
  }

  /** The engine after the calls, made in order: transport and validity
      survive any sequence, and one without a crossfade leaves the
      crossfader where it was. */
  function Run(e: AudioEngine.Engine, calls: seq<Call>): (r: AudioEngine.Engine)
    ensures KeepsTransport(e, r)
    ensures AudioEngine.Valid(e) ==> AudioEngine.Valid(r)
    ensures (forall k :: 0 <= k < |calls| ==> !calls[k].Crossfade?) ==> r.crossfader == e.crossfader
    decreases |calls|
  {
    if |calls| == 0 then e
    else
      var next := Apply(e, calls[0]);
      var r := Run(next, calls[1..]);
      KeepsTransportTransitive(e, next, r);
      r
  }

  lemma {:induction false} RunConcat(e: AudioEngine.Engine, xs: seq<Call>, ys: seq<Call>)
    ensures Run(e, xs + ys) == Run(Run(e, xs), ys)
    decreases |xs|
  {
    if |xs| > 0 {
      assert (xs + ys)[0] == xs[0];
      assert (xs + ys)[1..] == xs[1..] + ys;
      RunConcat(Apply(e, xs[0]), xs[1..], ys);
    } else {
      assert xs + ys == ys;
    }
  }

  /** How many waits a call sequence makes. */
  function SleepCount(calls: seq<Call>): nat
  {
    if |calls| == 0 then 0 else (if calls[0].Sleep? then 1 else 0) + SleepCount(calls[1..])
  }

  lemma {:induction false} SleepCountConcat(xs: seq<Call>, ys: seq<Call>)
    ensures SleepCount(xs + ys) == SleepCount(xs) + SleepCount(ys)
    decreases |xs|
  {
    if |xs| > 0 {
      assert (xs + ys)[0] == xs[0];
      assert (xs + ys)[1..] == xs[1..] + ys;
      SleepCountConcat(xs[1..], ys);
    } else {
      assert xs + ys == ys;
    }
  }

  lemma {:induction false} NoSleeps(xs: seq<Call>)
    requires forall k :: 0 <= k < |xs| ==> !xs[k].Sleep?
    ensures SleepCount(xs) == 0
    decreases |xs|
  {
    if |xs| > 0 {
      NoSleeps(xs[1..]);
    }
  }

  /** Each iteration waits once, for one step duration, at its end. */
  lemma StepSleepsOnce(fromDeck: AudioEngine.DeckId, toDeck: AudioEngine.DeckId, c: TransitionConfig, i: nat)
    ensures SleepCount(StepCalls(fromDeck, toDeck, c, i)) == 1
    ensures forall k :: 0 <= k < |StepCalls(fromDeck, toDeck, c, i)| && StepCalls(fromDeck, toDeck, c, i)[k].Sleep? ==>
              StepCalls(fromDeck, toDeck, c, i)[k].ms == StepDuration(c)
  {
    var calls := StepCalls(fromDeck, toDeck, c, i);
    var k := |calls| - 1;
    assert calls == calls[..k] + [calls[k]];
    SleepCountConcat(calls[..k], [calls[k]]);
    NoSleeps(calls[..k]);
  }

  lemma LoopSleeps(fromDeck: AudioEngine.DeckId, toDeck: AudioEngine.DeckId, c: TransitionConfig, n: nat)
    ensures SleepCount(LoopCalls(fromDeck, toDeck, c, n)) == n
    ensures forall k :: 0 <= k < |LoopCalls(fromDeck, toDeck, c, n)| && LoopCalls(fromDeck, toDeck, c, n)[k].Sleep? ==>
              LoopCalls(fromDeck, toDeck, c, n)[k].ms == StepDuration(c)
  {
    LoopSleepCount(fromDeck, toDeck, c, n);
    LoopSleepLengths(fromDeck, toDeck, c, n);
  }

  lemma {:induction false} LoopSleepCount(fromDeck: AudioEngine.DeckId, toDeck: AudioEngine.DeckId, c: TransitionConfig, n: nat)
    ensures SleepCount(LoopCalls(fromDeck, toDeck, c, n)) == n
  {
    if n > 0 {
      var pre := LoopCalls(fromDeck, toDeck, c, n - 1);
      var step := StepCalls(fromDeck, toDeck, c, n - 1);
      LoopSleepCount(fromDeck, toDeck, c, n - 1);
      SleepCountConcat(pre, step);
      StepSleepsOnce(fromDeck, toDeck, c, n - 1);
    }
  }

  lemma {:induction false} LoopSleepLengths(fromDeck: AudioEngine.DeckId, toDeck: AudioEngine.DeckId, c: TransitionConfig, n: nat)
    ensures forall k :: 0 <= k < |LoopCalls(fromDeck, toDeck, c, n)| && LoopCalls(fromDeck, toDeck, c, n)[k].Sleep? ==>
              LoopCalls(fromDeck, toDeck, c, n)[k].ms == StepDuration(c)
  {
    if n > 0 {
      var pre := LoopCalls(fromDeck, toDeck, c, n - 1);
      var step := StepCalls(fromDeck, toDeck, c, n - 1);
      LoopSleepLengths(fromDeck, toDeck, c, n - 1);
      StepSleepsOnce(fromDeck, toDeck, c, n - 1);
      SleepsOfConcat(pre, step, StepDuration(c));
    }
  }

  lemma SleepsOfConcat(xs: seq<Call>, ys: seq<Call>, ms: real)
    requires forall k :: 0 <= k < |xs| && xs[k].Sleep? ==> xs[k].ms == ms
    requires forall k :: 0 <= k < |ys| && ys[k].Sleep? ==> ys[k].ms == ms
    ensures forall k :: 0 <= k < |xs + ys| && (xs + ys)[k].Sleep? ==> (xs + ys)[k].ms == ms
  {
    forall k | 0 <= k < |xs + ys| && (xs + ys)[k].Sleep?
      ensures (xs + ys)[k].ms == ms
    {
      if k >= |xs| {
        assert (xs + ys)[k] == ys[k - |xs|];
      }
    }
  }

  /** A transition waits 61 times, each time for one step duration, so it
      lasts one step longer than configured: the loop includes both
      endpoints. */
  lemma TransitionTakesOneExtraStep(fromDeck: AudioEngine.DeckId, toDeck: AudioEngine.DeckId, c: TransitionConfig)
    ensures SleepCount(Transition(fromDeck, toDeck, c)) == Steps + 1
    ensures forall k :: 0 <= k < |Transition(fromDeck, toDeck, c)| && Transition(fromDeck, toDeck, c)[k].Sleep? ==>
              Transition(fromDeck, toDeck, c)[k].ms == StepDuration(c)
    ensures (Steps + 1) as real * StepDuration(c) == c.duration * 1000.0 + StepDuration(c)
  {
    var loop := LoopCalls(fromDeck, toDeck, c, Steps + 1);
    var rc := ResetCalls(fromDeck, toDeck);
    LoopSleeps(fromDeck, toDeck, c, Steps + 1);
    SleepCountConcat(loop, rc);
    NoSleeps(rc);
    forall k | 0 <= k < |loop + rc| && (loop + rc)[k].Sleep?
      ensures (loop + rc)[k].ms == StepDuration(c)
    {
      assert k < |loop|;
    }
  }

  /** Over the loop the crossfader moves strictly toward the incoming deck,
      the outgoing lowpass falls strictly from 20 kHz to 2 kHz and the
      incoming highpass rises strictly from 20 Hz to 200 Hz. */
  lemma SweepsAreMonotone(fromDeck: AudioEngine.DeckId, i: nat, j: nat)
    requires i < j <= Steps
    ensures fromDeck == AudioEngine.A ==> CrossfadeAt(fromDeck, i) < CrossfadeAt(fromDeck, j)
    ensures fromDeck == AudioEngine.B ==> CrossfadeAt(fromDeck, i) > CrossfadeAt(fromDeck, j)
    ensures LowpassAt(i) > LowpassAt(j) && HighpassAt(i) < HighpassAt(j)
    ensures 2000.0 <= LowpassAt(j) <= 20000.0 && 20.0 <= HighpassAt(j) <= 200.0
  {
    assert Progress(i) < Progress(j);
  }

  /** The crossfader starts fully on the outgoing deck and ends fully on the
      incoming one. */
  lemma SweepEndpoints(fromDeck: AudioEngine.DeckId)
    ensures CrossfadeAt(fromDeck, 0) == (if fromDeck == AudioEngine.A then 0.0 else 1.0)
    ensures CrossfadeAt(fromDeck, Steps) == (if fromDeck == AudioEngine.A then 1.0 else 0.0)
    ensures LowpassAt(0) == 20000.0 && LowpassAt(Steps) == 2000.0
    ensures HighpassAt(0) == 20.0 && HighpassAt(Steps) == 200.0
  {
  }

  /** With echo enabled the echo tail is written exactly from step 43 on
      (42/60 is exactly 0.7, which does not pass the strict test), just
      before the wait, always to the outgoing deck with a 0.375 s delay,
      feedback 0.4 and a mix of `progress - 0.7`, which stays in `(0, 0.3]`. */
  lemma EchoTail(fromDeck: AudioEngine.DeckId, toDeck: AudioEngine.DeckId, c: TransitionConfig, i: nat)
    requires c.useEcho && i <= Steps
    ensures (exists k :: 0 <= k < |StepCalls(fromDeck, toDeck, c, i)| && StepCalls(fromDeck, toDeck, c, i)[k].Echo?)
            <==> i >= 43
    ensures forall k :: 0 <= k < |StepCalls(fromDeck, toDeck, c, i)| && StepCalls(fromDeck, toDeck, c, i)[k].Echo? ==>
              StepCalls(fromDeck, toDeck, c, i)[k] == Echo(fromDeck, 0.375, 0.4, EchoMixAt(i))
    ensures i >= 43 ==> StepCalls(fromDeck, toDeck, c, i)[|StepCalls(fromDeck, toDeck, c, i)| - 2]
                        == Echo(fromDeck, 0.375, 0.4, EchoMixAt(i))
    ensures i >= 43 ==> EchoMixAt(i) == Progress(i) - EchoThreshold && 0.0 < EchoMixAt(i) <= 0.3
  {
    var calls := StepCalls(fromDeck, toDeck, c, i);
    if i >= 43 {
      assert Progress(i) > EchoThreshold;
      assert calls[|calls| - 2].Echo?;
    } else {
      assert Progress(i) <= EchoThreshold;
    }
  }

  /** Nothing the transition calls touches transport, the filter Q or the
      reverb mix, and it keeps the engine valid. */
  predicate KeepsTransport(before: AudioEngine.Engine, after: AudioEngine.Engine)
  {
    forall id: AudioEngine.DeckId ::
      && AudioEngine.DeckOf(after, id).(effects := AudioEngine.DeckOf(before, id).effects) == AudioEngine.DeckOf(before, id)
      && AudioEngine.DeckOf(after, id).effects.filterQ == AudioEngine.DeckOf(before, id).effects.filterQ
      && AudioEngine.DeckOf(after, id).effects.reverbMix == AudioEngine.DeckOf(before, id).effects.reverbMix
  }

  lemma KeepsTransportTransitive(a: AudioEngine.Engine, b: AudioEngine.Engine, c: AudioEngine.Engine)
    requires KeepsTransport(a, b) && KeepsTransport(b, c)
    ensures KeepsTransport(a, c)
  {
    forall id: AudioEngine.DeckId
      ensures AudioEngine.DeckOf(c, id).(effects := AudioEngine.DeckOf(a, id).effects) == AudioEngine.DeckOf(a, id)
    {
      assert AudioEngine.DeckOf(b, id).(effects := AudioEngine.DeckOf(a, id).effects) == AudioEngine.DeckOf(a, id);
      assert AudioEngine.DeckOf(c, id).(effects := AudioEngine.DeckOf(b, id).effects) == AudioEngine.DeckOf(b, id);
    }
  }

  /** The crossfader after the loop is where the final step put it. */
  lemma {:induction false} LoopEndsOnLastPosition(e: AudioEngine.Engine, fromDeck: AudioEngine.DeckId,
                                                  toDeck: AudioEngine.DeckId, c: TransitionConfig, n: nat)
    requires n > 0
    ensures Run(e, LoopCalls(fromDeck, toDeck, c, n)).crossfader
            == Clamp(0.0, 1.0, CrossfadeAt(fromDeck, n - 1))
  {
    var pre := LoopCalls(fromDeck, toDeck, c, n - 1);
    var step := StepCalls(fromDeck, toDeck, c, n - 1);
    RunConcat(e, pre, step);
    var mid := Run(e, pre);
    assert step == [step[0]] + step[1..];
    RunConcat(mid, [step[0]], step[1..]);
  }

  /** The state a transition leaves. The crossfader sits fully on the
      incoming deck; each deck keeps its transport; the outgoing and
      incoming decks' effects are back at the chain's initial parameters
      except for the filter Q and reverb mix, which the transition never
      writes (so a chain that started at its initial parameters ends there). */
  lemma TransitionOutcome(e: AudioEngine.Engine, fromDeck: AudioEngine.DeckId, toDeck: AudioEngine.DeckId,
                          c: TransitionConfig)
    ensures var r := Run(e, Transition(fromDeck, toDeck, c));
            && r.crossfader == (if fromDeck == AudioEngine.A then 1.0 else 0.0)
            && KeepsTransport(e, r)
            && (AudioEngine.Valid(e) ==> AudioEngine.Valid(r))
            && forall id :: id == fromDeck || id == toDeck ==>
                 AudioEngine.DeckOf(r, id).effects
                 == Effects.Initial().(filterQ := AudioEngine.DeckOf(e, id).effects.filterQ,
                                       reverbMix := AudioEngine.DeckOf(e, id).effects.reverbMix)
  {
    var loop := LoopCalls(fromDeck, toDeck, c, Steps + 1);
    var reset := ResetCalls(fromDeck, toDeck);
    RunConcat(e, loop, reset);
    var m := Run(e, loop);
    LoopEndsOnLastPosition(e, fromDeck, toDeck, c, Steps + 1);
    ResetRestores(m, fromDeck, toDeck);
    var r := Run(m, reset);
    KeepsTransportTransitive(e, m, r);
  }

  /** The four reset writes put both named decks' filter and echo back to
      their initial values, whatever the loop left there. */
  lemma ResetRestores(m: AudioEngine.Engine, fromDeck: AudioEngine.DeckId, toDeck: AudioEngine.DeckId)
    ensures forall id :: id == fromDeck || id == toDeck ==>
              AudioEngine.DeckOf(Run(m, ResetCalls(fromDeck, toDeck)), id).effects
              == Effects.Initial().(filterQ := AudioEngine.DeckOf(m, id).effects.filterQ,
                                    reverbMix := AudioEngine.DeckOf(m, id).effects.reverbMix)
    ensures Run(m, ResetCalls(fromDeck, toDeck)).crossfader == m.crossfader
  {
    var rc := ResetCalls(fromDeck, toDeck);
    var m1 := Apply(m, rc[0]);
    var m2 := Apply(m1, rc[1]);
    var m3 := Apply(m2, rc[2]);
    var m4 := Apply(m3, rc[3]);
    assert Run(m3, rc[3..]) == m4 by {
      assert rc[3..][1..] == [];
    }
    assert Run(m, rc) == m4 by {
      assert rc[1..][0] == rc[1] && rc[1..][1..] == rc[2..];
      assert rc[2..][0] == rc[2] && rc[2..][1..] == rc[3..];
      assert rc[3..][0] == rc[3];
    }
  }
}

=== FILE: audio_engine.dfy ===
/** The engine of `AudioEngine.ts`: two decks and the crossfader position.
    Every public method that touches one deck picks it by id, runs the deck
    transition and leaves the other deck alone. */
module AudioEngine {
  import opened JsNumber
  import opened Optional
  import opened Pcm
  import Effects
  import DeckTransport

  datatype DeckId = A | B

  datatype Engine = Engine(deckA: DeckTransport.Deck, deckB: DeckTransport.Deck, crossfader: real)

  /** What `getDeckState` reports about a deck. */
  datatype DeckConfig = DeckConfig(
    id: DeckId,
    buffer: Option<Buffer>,
    playing: bool,
    position: real,
    playbackRate: real,
    loop: bool,
    loopStart: real,
    loopEnd: real)

  function Other(id: DeckId): DeckId
  {
    if id == A then B else A
  }

  function DeckOf(e: Engine, id: DeckId): DeckTransport.Deck
  {
    if id == A then e.deckA else e.deckB
  }

  /** Replaces one deck and nothing else. */
  function WithDeck(e: Engine, id: DeckId, d: DeckTransport.Deck): (r: Engine)
    ensures DeckOf(r, id) == d
    ensures DeckOf(r, Other(id)) == DeckOf(e, Other(id))
    ensures r.crossfader == e.crossfader
  {
    if id == A then e.(deckA := d) else e.(deckB := d)
  }

  /** Both decks keep the deck invariant and the crossfader is in `[0, 1]`. */
  predicate Valid(e: Engine)
  {
    && DeckTransport.Valid(e.deckA)
    && DeckTransport.Valid(e.deckB)
    && 0.0 <= e.crossfader <= 1.0
  }

  /** A fresh engine: two empty decks and the crossfader in the middle. */
  function NewEngine(): (e: Engine)
    ensures Valid(e) && e.crossfader == 0.5
    ensures forall id :: DeckOf(e, id) == DeckTransport.NewDeck()
  {
    Engine(DeckTransport.NewDeck(), DeckTransport.NewDeck(), 0.5)
  }

  /** Loads a buffer into one deck, which ends stopped at 0 with its loop end
      at the buffer's duration; the other deck is untouched. */
  function LoadTrack(e: Engine, id: DeckId, b: Buffer): (r: Engine)
    ensures DeckOf(r, id).buffer == Some(b) && !DeckOf(r, id).playing
    ensures DeckOf(r, id).position == 0.0 && DeckOf(r, id).loopEnd == Duration(b)
    ensures DeckOf(r, id).source.None?
    ensures DeckOf(r, id).playbackRate == DeckOf(e, id).playbackRate && DeckOf(r, id).loop == DeckOf(e, id).loop
    ensures DeckOf(r, id).loopStart == DeckOf(e, id).loopStart && DeckOf(r, id).effects == DeckOf(e, id).effects
    ensures DeckOf(r, id) == DeckTransport.Load(DeckOf(e, id), b)
    ensures DeckOf(r, Other(id)) == DeckOf(e, Other(id)) && r.crossfader == e.crossfader
    ensures Valid(e) ==> Valid(r)
  {
    WithDeck(e, id, DeckTransport.Load(DeckOf(e, id), b))
  }

  /** Starts the chosen deck from its stored position unless it has no
      buffer or already plays, in which case nothing changes. */
  function Play(e: Engine, id: DeckId, clock: real): (r: Engine)
    ensures DeckOf(r, id).playing <==> DeckOf(e, id).playing || DeckOf(e, id).buffer.Some?
    ensures DeckOf(e, id).buffer.None? || DeckOf(e, id).playing ==> r == e
    ensures DeckOf(e, id).buffer.Some? && !DeckOf(e, id).playing ==>
              && DeckOf(r, id).startTime == clock - DeckOf(e, id).position
              && DeckOf(r, id).source == Some(DeckTransport.StartSource(DeckOf(e, id)))
              && DeckOf(r, id).(playing := false, startTime := DeckOf(e, id).startTime,
                                source := DeckOf(e, id).source) == DeckOf(e, id)
    ensures DeckOf(r, id) == DeckTransport.Play(DeckOf(e, id), clock)
    ensures DeckOf(r, Other(id)) == DeckOf(e, Other(id)) && r.crossfader == e.crossfader
    ensures Valid(e) ==> Valid(r)
  {
    WithDeck(e, id, DeckTransport.Play(DeckOf(e, id), clock))
  }

  /** Stops the chosen deck holding the position it reports; a stopped deck
      is left as it is. */
  function Pause(e: Engine, id: DeckId, clock: real): (r: Engine)
    ensures !DeckOf(r, id).playing
    ensures DeckOf(r, id).position == GetCurrentPosition(e, id, clock)
    ensures !DeckOf(e, id).playing ==> r == e
    ensures DeckOf(e, id).playing ==>
              && DeckOf(r, id).source.None?
              && DeckOf(r, id).(position := DeckOf(e, id).position, playing := true,
                                source := DeckOf(e, id).source) == DeckOf(e, id)
    ensures DeckOf(r, id) == DeckTransport.Pause(DeckOf(e, id), clock)
    ensures DeckOf(r, Other(id)) == DeckOf(e, Other(id)) && r.crossfader == e.crossfader
    ensures Valid(e) ==> Valid(r)
  {
    WithDeck(e, id, DeckTransport.Pause(DeckOf(e, id), clock))
  }

  /** Tears down the chosen deck's source; position, rate, loop settings and
      effects stay. */
  function Stop(e: Engine, id: DeckId): (r: Engine)
    ensures !DeckOf(r, id).playing && DeckOf(r, id).position == DeckOf(e, id).position
    ensures DeckOf(r, id).source.None?
    ensures DeckOf(r, id).(playing := DeckOf(e, id).playing, source := DeckOf(e, id).source) == DeckOf(e, id)
    ensures DeckOf(r, id) == DeckTransport.Stop(DeckOf(e, id))
    ensures DeckOf(r, Other(id)) == DeckOf(e, Other(id)) && r.crossfader == e.crossfader
    ensures Valid(e) ==> Valid(r)
  {
    WithDeck(e, id, DeckTransport.Stop(DeckOf(e, id)))
  }

  function GetCurrentPosition(e: Engine, id: DeckId, clock: real): (p: real)
    ensures !DeckOf(e, id).playing ==> p == DeckOf(e, id).position
  {
    DeckTransport.CurrentPosition(DeckOf(e, id), clock)
  }

  /** Moves the chosen deck to `position`, unclamped; a playing deck keeps
      playing from there, and buffer, rate, loop settings and effects stay. */
  function Seek(e: Engine, id: DeckId, position: real, clock: real): (r: Engine)
    ensures DeckOf(r, id).position == position
    ensures Valid(e) ==> DeckOf(r, id).playing == DeckOf(e, id).playing
    ensures !DeckOf(e, id).playing ==> DeckOf(r, id) == DeckOf(e, id).(position := position)
    ensures Valid(e) && DeckOf(e, id).playing ==> DeckOf(r, id).startTime == clock - position
    ensures DeckOf(r, id).buffer == DeckOf(e, id).buffer && DeckOf(r, id).playbackRate == DeckOf(e, id).playbackRate
    ensures DeckOf(r, id).loop == DeckOf(e, id).loop && DeckOf(r, id).effects == DeckOf(e, id).effects
    ensures DeckOf(r, id).loopStart == DeckOf(e, id).loopStart && DeckOf(r, id).loopEnd == DeckOf(e, id).loopEnd
    ensures DeckOf(r, id) == DeckTransport.Seek(DeckOf(e, id), position, clock)
    ensures DeckOf(r, Other(id)) == DeckOf(e, Other(id)) && r.crossfader == e.crossfader
    ensures Valid(e) ==> Valid(r)
  {
    WithDeck(e, id, DeckTransport.Seek(DeckOf(e, id), position, clock))
  }

  /** Stores the rate on the chosen deck and in its live source, if any;
      nothing else on the deck changes. */
  function SetPlaybackRate(e: Engine, id: DeckId, rate: real): (r: Engine)
    ensures DeckOf(r, id).playbackRate == rate
    ensures DeckOf(r, id).playing == DeckOf(e, id).playing
    ensures DeckOf(r, id).source.Some? <==> DeckOf(e, id).source.Some?
    ensures DeckOf(r, id).source.Some? ==>
              DeckOf(r, id).source.value == DeckOf(e, id).source.value.(playbackRate := rate)
    ensures DeckOf(r, id).(playbackRate := DeckOf(e, id).playbackRate, source := DeckOf(e, id).source)
            == DeckOf(e, id)
    ensures DeckOf(r, id) == DeckTransport.SetPlaybackRate(DeckOf(e, id), rate)
    ensures DeckOf(r, Other(id)) == DeckOf(e, Other(id)) && r.crossfader == e.crossfader
    ensures Valid(e) ==> Valid(r)
  {
    WithDeck(e, id, DeckTransport.SetPlaybackRate(DeckOf(e, id), rate))
  }

  /** Stores the position clamped to `[0, 1]`; the decks are untouched (the
      equal-power gains written alongside are not modelled). */
  function SetCrossfader(e: Engine, position: real): (r: Engine)
    ensures 0.0 <= r.crossfader <= 1.0
    ensures 0.0 <= position <= 1.0 ==> r.crossfader == position
    ensures position < 0.0 ==> r.crossfader == 0.0
    ensures position > 1.0 ==> r.crossfader == 1.0
    ensures r.deckA == e.deckA && r.deckB == e.deckB
    ensures Valid(e) ==> Valid(r)
  {
    e.(crossfader := Clamp(0.0, 1.0, position))
  }

  /** Writing the crossfader twice with the same value is writing it once,
      and writing back the stored value changes nothing. */
  lemma SetCrossfaderIdempotent(e: Engine, position: real)
    ensures SetCrossfader(SetCrossfader(e, position), position) == SetCrossfader(e, position)
    ensures Valid(e) ==> SetCrossfader(e, e.crossfader) == e
  {
  }

  function SetLoop(e: Engine, id: DeckId, enabled: bool, start: Option<real>, end: Option<real>): (r: Engine)
    ensures DeckOf(r, id).loop == enabled
    ensures DeckOf(r, id).loopStart == (if start.Some? then start.value else DeckOf(e, id).loopStart)
    ensures DeckOf(r, id).loopEnd == (if end.Some? then end.value else DeckOf(e, id).loopEnd)
    ensures DeckOf(r, id).playing == DeckOf(e, id).playing
    ensures DeckOf(r, id).position == DeckOf(e, id).position
    ensures DeckOf(r, id).source.Some? <==> DeckOf(e, id).source.Some?
    ensures DeckOf(r, id).source.Some? ==> DeckOf(r, id).source.value.loop == enabled
    ensures DeckOf(r, id).source.Some? && enabled ==>
              && DeckOf(r, id).source.value.loopStart == DeckOf(r, id).loopStart
              && DeckOf(r, id).source.value.loopEnd == DeckOf(r, id).loopEnd
    ensures DeckOf(r, id).(loop := DeckOf(e, id).loop, loopStart := DeckOf(e, id).loopStart,
                           loopEnd := DeckOf(e, id).loopEnd, source := DeckOf(e, id).source) == DeckOf(e, id)
    ensures DeckOf(r, id) == DeckTransport.SetLoop(DeckOf(e, id), enabled, start, end)
    ensures DeckOf(r, Other(id)) == DeckOf(e, Other(id)) && r.crossfader == e.crossfader
    ensures Valid(e) ==> Valid(r)
  {
    WithDeck(e, id, DeckTransport.SetLoop(DeckOf(e, id), enabled, start, end))
  }

  /** The effect setters reach the chosen deck's chain and nothing else. */
  function SetFilter(e: Engine, id: DeckId, kind: Effects.FilterType, frequency: real): (r: Engine)
    ensures DeckOf(r, id).effects == Effects.SetFilter(DeckOf(e, id).effects, kind, frequency)
    ensures DeckOf(r, id).(effects := DeckOf(e, id).effects) == DeckOf(e, id)
    ensures DeckOf(r, Other(id)) == DeckOf(e, Other(id)) && r.crossfader == e.crossfader
    ensures Valid(e) ==> Valid(r)
  {
    var d := DeckOf(e, id);
    WithDeck(e, id, d.(effects := Effects.SetFilter(d.effects, kind, frequency)))
  }

  function SetEcho(e: Engine, id: DeckId, time: real, feedback: real, mix: real): (r: Engine)
    ensures DeckOf(r, id).effects == Effects.SetEcho(DeckOf(e, id).effects, time, feedback, mix)
    ensures DeckOf(r, id).(effects := DeckOf(e, id).effects) == DeckOf(e, id)
    ensures DeckOf(r, Other(id)) == DeckOf(e, Other(id)) && r.crossfader == e.crossfader
    ensures Valid(e) ==> Valid(r)
  {
    var d := DeckOf(e, id);
    WithDeck(e, id, d.(effects := Effects.SetEcho(d.effects, time, feedback, mix)))
  }

  function SetReverb(e: Engine, id: DeckId, mix: real): (r: Engine)
    ensures DeckOf(r, id).effects == Effects.SetReverb(DeckOf(e, id).effects, mix)
    ensures DeckOf(r, id).(effects := DeckOf(e, id).effects) == DeckOf(e, id)
    ensures DeckOf(r, Other(id)) == DeckOf(e, Other(id)) && r.crossfader == e.crossfader
    ensures Valid(e) ==> Valid(r)
  {
    var d := DeckOf(e, id);
    WithDeck(e, id, d.(effects := Effects.SetReverb(d.effects, mix)))
  }

  /** The platform's `ended` event for one deck's source: ignored while the
      deck loops; otherwise the deck stops and rewinds to 0, nothing else
      on it changing. */
  function SourceEnded(e: Engine, id: DeckId): (r: Engine)
    ensures DeckOf(r, id).playing ==> DeckOf(e, id).playing
    ensures DeckOf(e, id).loop ==> r == e
    ensures !DeckOf(e, id).loop ==>
              && !DeckOf(r, id).playing && DeckOf(r, id).position == 0.0
              && DeckOf(r, id).(playing := DeckOf(e, id).playing, position := DeckOf(e, id).position) == DeckOf(e, id)
    ensures DeckOf(r, id) == DeckTransport.SourceEnded(DeckOf(e, id))
    ensures DeckOf(r, Other(id)) == DeckOf(e, Other(id)) && r.crossfader == e.crossfader
    ensures Valid(e) ==> Valid(r)
  {
    WithDeck(e, id, DeckTransport.SourceEnded(DeckOf(e, id)))
  }

  /** The snapshot of one deck: the deck's own buffer, transport flag, rate
      and loop settings, with the derived position; a playing deck has a
      buffer. */
  function GetDeckState(e: Engine, id: DeckId, clock: real): (c: DeckConfig)
    ensures c.id == id
    ensures c.buffer == DeckOf(e, id).buffer && c.playing == DeckOf(e, id).playing
    ensures c.playbackRate == DeckOf(e, id).playbackRate
    ensures c.loop == DeckOf(e, id).loop
    ensures c.loopStart == DeckOf(e, id).loopStart && c.loopEnd == DeckOf(e, id).loopEnd
    ensures Valid(e) && c.playing ==> c.buffer.Some?
    ensures c.position == GetCurrentPosition(e, id, clock)
    ensures !c.playing ==> c.position == DeckOf(e, id).position
  {
    var d := DeckOf(e, id);
    DeckConfig(id, d.buffer, d.playing, DeckTransport.CurrentPosition(d, clock),
               d.playbackRate, d.loop, d.loopStart, d.loopEnd)
  }

  /** Right after a load the snapshot shows the new buffer, stopped at 0,
      with the loop ending at the buffer's end, at any clock. */
  lemma SnapshotAfterLoad(e: Engine, id: DeckId, b: Buffer, clock: real)
    ensures var c := GetDeckState(LoadTrack(e, id, b), id, clock);
            c.buffer == Some(b) && !c.playing && c.position == 0.0 && c.loopEnd == Duration(b)
  {
  }

  /** After a pause the snapshot shows a stopped deck holding, at every later
      clock, the position read when pausing. */
  lemma SnapshotAfterPause(e: Engine, id: DeckId, clock: real, later: real)
    ensures var c := GetDeckState(Pause(e, id, clock), id, later);
            !c.playing && c.position == GetCurrentPosition(e, id, clock)
  {
  }

  /** The snapshot reports loop settings exactly as `setLoop` left them, and
      a deck's snapshot does not see writes to the other deck. */
  lemma SnapshotAfterSetLoop(e: Engine, id: DeckId, enabled: bool, start: Option<real>, end: Option<real>,
                             clock: real)
    ensures var c := GetDeckState(SetLoop(e, id, enabled, start, end), id, clock);
            && c.loop == enabled
            && c.loopStart == (if start.Some? then start.value else DeckOf(e, id).loopStart)
            && c.loopEnd == (if end.Some? then end.value else DeckOf(e, id).loopEnd)
    ensures GetDeckState(SetLoop(e, id, enabled, start, end), Other(id), clock) == GetDeckState(e, Other(id), clock)
  {
  }
}

=== FILE: beatmatch.dfy ===
/** The synchronisation helpers of `beatmatch.ts`: the playback-rate ratio
    that brings one tempo onto another, snapping a position to the
    subdivision grid, and the list of beat times of a track. */
module Beatmatch {
  import opened JsNumber

  /** The rate to play a `sourceBpm` track at so that it runs at
      `targetBpm`; 1 (no change) when either tempo is unknown (zero). */
  function SyncRate(sourceBpm: real, targetBpm: real): (r: real)
    ensures sourceBpm == 0.0 || targetBpm == 0.0 ==> r == 1.0
    ensures sourceBpm != 0.0 && targetBpm != 0.0 ==> sourceBpm * r == targetBpm && r != 0.0
  {
    if sourceBpm == 0.0 || targetBpm == 0.0 then 1.0 else targetBpm / sourceBpm
  }

  /** Syncing one way and then back is the identity rate. */
  lemma SyncRateRoundTrip(sourceBpm: real, targetBpm: real)
    ensures SyncRate(sourceBpm, targetBpm) * SyncRate(targetBpm, sourceBpm) == 1.0
  {
    if sourceBpm != 0.0 && targetBpm != 0.0 {
      RatioTimesInverse(sourceBpm, targetBpm);
    }
  }

  lemma RatioTimesInverse(s: real, t: real)
    requires s != 0.0 && t != 0.0
    ensures (t / s) * (s / t) == 1.0
  {
  }

  /** Seconds per beat. */
  function BeatLength(bpm: real): real
    requires bpm != 0.0
  {
    60.0 / bpm
  }

  /** Seconds per grid line: a beat divided into `subdivision` parts. */
  function GridLength(bpm: real, subdivision: real): (g: real)
    requires bpm != 0.0 && subdivision != 0.0
    ensures g != 0.0
  {
    BeatLength(bpm) / subdivision
  }

  /** The grid line nearest to `position` (halves upward), as a multiple of
      the grid length. */
  function Quantize(position: real, bpm: real, subdivision: real): (r: real)
    requires bpm != 0.0 && subdivision != 0.0
    ensures Abs(r - position) <= Abs(GridLength(bpm, subdivision)) / 2.0
  {
    var g := GridLength(bpm, subdivision);
    NearestLine(position, g, Round(position / g));
    Round(position / g) as real * g
  }

  /** The quantised position is a whole number of grid lines and lies within
      half a grid line of the input. */
  lemma QuantizeOnNearestLine(position: real, bpm: real, subdivision: real)
    requires bpm != 0.0 && subdivision != 0.0
    ensures var g := GridLength(bpm, subdivision);
            var r := Quantize(position, bpm, subdivision);
            && (r / g).Floor as real == r / g
            && Abs(r - position) <= Abs(g) / 2.0
  {
    var g := GridLength(bpm, subdivision);
    var q := position / g;
    var k := Round(q);
    assert Quantize(position, bpm, subdivision) == k as real * g;
    WholeMultiple(k, g);
    NearestLine(position, g, k);
  }

  lemma WholeMultiple(k: int, g: real)
    requires g != 0.0
    ensures ((k as real * g) / g).Floor as real == (k as real * g) / g
  {
    assert (k as real * g) / g == k as real;
  }

  lemma NearestLine(position: real, g: real, k: int)
    requires g != 0.0 && position / g - 0.5 < k as real <= position / g + 0.5
    ensures Abs(k as real * g - position) <= Abs(g) / 2.0
  {
    var q := position / g;
    var x := k as real - q;
    assert q * g == position;
    var diff := k as real * g - position;
    assert diff == x * g by {
      assert k as real * g - q * g == (k as real - q) * g;
    }
    AbsMul(x, g);
    var ax, ag := Abs(x), Abs(g);
    assert Abs(diff) == ax * ag;
    assert ax <= 0.5;
    MulMonotone(ax, 0.5, ag);
    assert ax * ag <= 0.5 * ag;
    assert 0.5 * ag == ag / 2.0;
  }

  /** Snapping a position that is already on the grid leaves it there. */
  lemma QuantizeIdempotent(position: real, bpm: real, subdivision: real)
    requires bpm != 0.0 && subdivision != 0.0
    ensures Quantize(Quantize(position, bpm, subdivision), bpm, subdivision)
            == Quantize(position, bpm, subdivision)
  {
    var g := GridLength(bpm, subdivision);
    var k := Round(position / g);
    var r := Quantize(position, bpm, subdivision);
    assert r == k as real * g;
    assert r / g == k as real;
    assert Round(k as real) == k;
  }

  lemma AbsMul(x: real, y: real)
    ensures Abs(x * y) == Abs(x) * Abs(y)
  {
    if x < 0.0 && y < 0.0 {
      assert x * y == (-x) * (-y);
    } else if x < 0.0 {
      assert -(x * y) == (-x) * y;
    } else if y < 0.0 {
      assert -(x * y) == x * (-y);
    }
  }

  /** How many beats start strictly before `duration`: none for a
      non-positive duration, otherwise the duration in beats rounded up. */
  function BeatCount(duration: real, bpm: real): nat
    requires bpm > 0.0
  {
    if duration <= 0.0 then 0 else Ceil(duration * bpm / 60.0)
  }

  /** The beat times `0, b, 2b, ...` strictly before `duration`, where `b`
      is one beat at `bpm`, accumulated exactly as the loop of `calculateBeatGrid` does
      (in exact arithmetic). A track without positive length has no beats.
      At tempo 0 a beat lasts forever: the loop emits the beat at 0 and
      stops. At a negative tempo and a positive length the loop of
      `calculateBeatGrid` never ends, so that case is excluded. */
  method CalculateBeatGrid(duration: real, bpm: real) returns (beats: seq<real>)
    requires bpm >= 0.0 || duration <= 0.0
    ensures duration <= 0.0 ==> beats == []
    ensures bpm == 0.0 ==> beats == (if duration > 0.0 then [0.0] else [])
    ensures bpm > 0.0 ==> |beats| == BeatCount(duration, bpm)
    ensures bpm > 0.0 ==> forall k :: 0 <= k < |beats| ==> beats[k] == k as real * BeatLength(bpm)
    ensures forall k :: 0 <= k < |beats| ==> beats[k] < duration
    ensures forall i, j :: 0 <= i < j < |beats| ==> beats[i] < beats[j]
  {
    if duration <= 0.0 {
      return [];
    }
    if bpm == 0.0 {
      return [0.0];
    }
    var beat := BeatLength(bpm);
    ghost var n := BeatCount(duration, bpm);
    beats := [];
    var time := 0.0;
    while time < duration
      invariant time == |beats| as real * beat
      invariant |beats| <= n
      invariant IsGridPrefix(beats, beat, duration)
      decreases n - |beats|
    {
      BeforeEndIsBelowCount(duration, bpm, |beats|);
      ExtendGrid(beats, beat, duration, time);
      beats := beats + [time];
      time := time + beat;
    }
    if |beats| < n {
      BelowCountIsBeforeEnd(duration, bpm, |beats|);
    }
    GridIncreases(beats, beat, duration);
  }

  /** The first `|beats|` grid lines, each before `duration`. */
  predicate IsGridPrefix(beats: seq<real>, beat: real, duration: real)
  {
    forall k :: 0 <= k < |beats| ==> beats[k] == k as real * beat && beats[k] < duration
  }

  lemma ExtendGrid(beats: seq<real>, beat: real, duration: real, time: real)
    requires IsGridPrefix(beats, beat, duration)
    requires time == |beats| as real * beat && time < duration
    ensures IsGridPrefix(beats + [time], beat, duration)
    ensures time + beat == |beats + [time]| as real * beat
  {
    NextMultiple(|beats|, beat);
  }

  lemma GridIncreases(beats: seq<real>, beat: real, duration: real)
    requires IsGridPrefix(beats, beat, duration) && beat > 0.0
    ensures forall i, j :: 0 <= i < j < |beats| ==> beats[i] < beats[j]
  {
    forall i, j | 0 <= i < j < |beats|
      ensures beats[i] < beats[j]
    {
      GridPairIncreases(beats, beat, duration, i, j);
    }
  }

  lemma GridPairIncreases(beats: seq<real>, beat: real, duration: real, i: nat, j: nat)
    requires IsGridPrefix(beats, beat, duration) && beat > 0.0
    requires i < j < |beats|
    ensures beats[i] < beats[j]
  {
    var bi, bj := beats[i], beats[j];
    assert bi == i as real * beat;
    assert bj == j as real * beat;
    GridLineBelow(i, j, beat);
  }

  /** An earlier grid line lies strictly before a later one. */
  lemma GridLineBelow(i: nat, j: nat, beat: real)
    requires i < j && beat > 0.0
    ensures i as real * beat < j as real * beat
  {
    MulStrictMonotone(i as real, j as real, beat);
  }

  /** `n` beats reach at least `duration`, and one fewer do not. */
  lemma BeatCountBounds(duration: real, bpm: real)
    requires bpm > 0.0
    ensures BeatCount(duration, bpm) as real * BeatLength(bpm) >= duration
    ensures BeatCount(duration, bpm) > 0 ==> (BeatCount(duration, bpm) - 1) as real * BeatLength(bpm) < duration
  {
    var beat := BeatLength(bpm);
    var n := BeatCount(duration, bpm);
    if duration > 0.0 {
      var x := duration * bpm / 60.0;
      assert x * beat == duration;
      assert x <= n as real < x + 1.0;
      MulMonotone(x, n as real, beat);
      MulStrictMonotone((n - 1) as real, x, beat);
    }
  }

  lemma NextMultiple(k: int, b: real)
    ensures (k + 1) as real * b == k as real * b + b
  {
  }

  /** A beat that starts before the end is one of the first `n`. */
  lemma BeforeEndIsBelowCount(duration: real, bpm: real, k: nat)
    requires bpm > 0.0 && k as real * BeatLength(bpm) < duration
    ensures k < BeatCount(duration, bpm)
  {
    var n := BeatCount(duration, bpm);
    BeatCountBounds(duration, bpm);
    if k >= n {
      MulMonotone(n as real, k as real, BeatLength(bpm));
    }
  }

  /** With fewer than `n` beats the next beat still starts before the end. */
  lemma BelowCountIsBeforeEnd(duration: real, bpm: real, k: nat)
    requires bpm > 0.0 && k < BeatCount(duration, bpm)
    ensures k as real * BeatLength(bpm) < duration
  {
    var n := BeatCount(duration, bpm);
    BeatCountBounds(duration, bpm);
    MulMonotone(k as real, (n - 1) as real, BeatLength(bpm));
  }
}

=== FILE: deck.dfy ===
/** The transport of one deck of `AudioEngine.ts`: which buffer is loaded,
    whether it plays, where it is, at what rate, and its loop region. Each
    engine method becomes a pure transition on the deck record; the audio
    clock (`context.currentTime`) is an explicit parameter. The platform's
    playback source node is kept as the parameters it was started with
    and that later calls write into it. */
module DeckTransport {
  import opened JsNumber
  import opened Optional
  import opened Pcm
  import Effects

  /** The active playback source: what `play` configured and what
      `setPlaybackRate`/`setLoop` later wrote into it. A source's own loop
      bounds stay at the platform default 0 unless looping was on. */
  datatype Source = Source(playbackRate: real, loop: bool, loopStart: real, loopEnd: real, offset: real)

  datatype Deck = Deck(
    buffer: Option<Buffer>,
    source: Option<Source>,
    playing: bool,
    position: real,
    startTime: real,
    playbackRate: real,
    loop: bool,
    loopStart: real,
    loopEnd: real,
    effects: Effects.EffectParams)

  /** A deck that plays has a live source, and a live source always plays
      a loaded buffer. */
  predicate Valid(d: Deck)
  {
    && (d.playing ==> d.source.Some?)
    && (d.source.Some? ==> d.buffer.Some?)
  }

  /** A deck as the engine builds it: empty, stopped at 0, rate 1, no loop. */
  function NewDeck(): (d: Deck)
    ensures Valid(d) && d.buffer.None? && !d.playing
    ensures forall clock :: CurrentPosition(d, clock) == 0.0
    ensures d.playbackRate == 1.0 && !d.loop
    ensures d.effects == Effects.Initial()
  {
    Deck(None, None, false, 0.0, 0.0, 1.0, false, 0.0, 0.0, Effects.Initial())
  }

  /** Tears down the source and clears `playing`; position, rate, loop
      flag and loop bounds stay as they are. */
  function Stop(d: Deck): (r: Deck)
    ensures !r.playing && r.source.None?
    ensures r.(playing := d.playing, source := d.source) == d
    ensures Valid(r)
  {
    d.(source := None, playing := false)
  }

  /** Stops, installs the buffer, rewinds to 0 and makes the loop end the
      buffer's duration. */
  function Load(d: Deck, b: Buffer): (r: Deck)
    ensures r.buffer == Some(b) && !r.playing && r.source.None?
    ensures r.position == 0.0 && r.loopEnd == Duration(b)
    ensures r.playbackRate == d.playbackRate && r.loop == d.loop && r.loopStart == d.loopStart
    ensures r.startTime == d.startTime && r.effects == d.effects
    ensures Valid(r)
  {
    Stop(d).(buffer := Some(b), position := 0.0, loopEnd := Duration(b))
  }

  /** The source `play` creates: current rate and loop flag, the loop
      bounds only when looping, started at the stored position. */
  function StartSource(d: Deck): Source
  {
    Source(d.playbackRate, d.loop,
           if d.loop then d.loopStart else 0.0,
           if d.loop then d.loopEnd else 0.0,
           d.position)
  }

  /** Refused without a buffer or while playing. Otherwise starts a source
      at the stored position and takes `startTime = clock - position`. */
  function Play(d: Deck, clock: real): (r: Deck)
    ensures d.buffer.None? || d.playing ==> r == d
    ensures d.buffer.Some? && !d.playing ==>
              && r.playing
              && r.startTime == clock - d.position
              && r.source.Some? && r.source.value.offset == d.position
              && r.source.value.playbackRate == d.playbackRate
              && r.source.value.loop == d.loop
              && r.source.value.loopStart == (if d.loop then d.loopStart else 0.0)
              && r.source.value.loopEnd == (if d.loop then d.loopEnd else 0.0)
              && r.(playing := d.playing, startTime := d.startTime, source := d.source) == d
    ensures Valid(d) ==> Valid(r)
  {
    if d.buffer.None? || d.playing then d
    else d.(source := Some(StartSource(d)), startTime := clock - d.position, playing := true)
  }

  /** Time since `startTime`, scaled by the current rate. */
  function Elapsed(d: Deck, clock: real): real
  {
    (clock - d.startTime) * d.playbackRate
  }

  /** The position `getCurrentPosition` reports: the stored one unless the
      deck plays a buffer, and then the elapsed time wrapped by the buffer
      duration with the sign of the dividend. */
  function CurrentPosition(d: Deck, clock: real): (r: real)
    ensures !d.playing || d.buffer.None? ==> r == d.position
  {
    if !d.playing || d.buffer.None? then d.position
    else RemReal(Elapsed(d, clock), Duration(d.buffer.value))
  }

  /** While a buffer plays and no time has run backwards the derived
      position lies inside the buffer. */
  lemma PositionWithinBuffer(d: Deck, clock: real)
    requires d.playing && d.buffer.Some?
    requires clock >= d.startTime && d.playbackRate >= 0.0
    ensures 0.0 <= CurrentPosition(d, clock) < Duration(d.buffer.value)
  {
    ProductNonNegative(clock - d.startTime, d.playbackRate);
    RemRealRange(Elapsed(d, clock), Duration(d.buffer.value));
  }

  lemma ProductNonNegative(x: real, y: real)
    requires x >= 0.0 && y >= 0.0
    ensures x * y >= 0.0
  {
  }

  /** `startTime` ignores the rate, so a read at the very instant playback
      starts gives the stored position times the rate, wrapped, rather than
      the stored position. */
  lemma ReadAtPlayInstant(d: Deck, clock: real)
    requires d.buffer.Some? && !d.playing
    ensures CurrentPosition(Play(d, clock), clock)
            == RemReal(d.position * d.playbackRate, Duration(d.buffer.value))
  {
    var r := Play(d, clock);
    assert clock - r.startTime == d.position;
    assert Elapsed(r, clock) == d.position * d.playbackRate;
  }

  /** Does nothing unless playing; otherwise stores the derived position and
      stops. */
  function Pause(d: Deck, clock: real): (r: Deck)
    ensures !d.playing ==> r == d
    ensures d.playing ==>
              && !r.playing && r.source.None?
              && r.position == CurrentPosition(d, clock)
              && r.(position := d.position, playing := true, source := d.source) == d
    ensures Valid(r) || r == d
  {
    if !d.playing then d
    else Stop(d.(position := CurrentPosition(d, clock)))
  }

  /** After a pause the reported position stays frozen at the value read
      when pausing, whatever the clock says later. */
  lemma PauseFreezesPosition(d: Deck, clock: real, later: real)
    ensures CurrentPosition(Pause(d, clock), later) == CurrentPosition(d, clock)
  {
  }

  /** At rate 1, pausing and playing again at the same instant resumes
      exactly where playback was. */
  lemma PauseThenPlayResumes(d: Deck, clock: real)
    requires d.playing && d.buffer.Some? && d.playbackRate == 1.0
    requires clock >= d.startTime
    ensures CurrentPosition(Play(Pause(d, clock), clock), clock) == CurrentPosition(d, clock)
  {
    var p := CurrentPosition(d, clock);
    var dur := Duration(d.buffer.value);
    PositionWithinBuffer(d, clock);
    ReadAtPlayInstant(Pause(d, clock), clock);
    assert p * 1.0 == p;
    RemRealOfSmall(p, dur);
  }

  /** Stores the new position as given, without clamping. A playing deck is
      stopped and started again so that it keeps playing from there. */
  function Seek(d: Deck, position: real, clock: real): (r: Deck)
    ensures r.position == position
    ensures r.playing ==> d.playing
    ensures Valid(d) ==> Valid(r) && r.playing == d.playing
    ensures !d.playing ==> r == d.(position := position)
    ensures Valid(d) && d.playing ==> r.startTime == clock - position
    ensures r.buffer == d.buffer && r.playbackRate == d.playbackRate && r.loop == d.loop
    ensures r.loopStart == d.loopStart && r.loopEnd == d.loopEnd && r.effects == d.effects
  {
    var stopped := if d.playing then Stop(d) else d;
    var moved := stopped.(position := position);
    if d.playing then Play(moved, clock) else moved
  }

  /** A deck that is not playing reports exactly the position it was sought
      to, at any later clock. */
  lemma SeekWhileStoppedReads(d: Deck, position: real, clock: real, later: real)
    requires !d.playing
    ensures CurrentPosition(Seek(d, position, clock), later) == position
  {
  }

  /** Stores the rate and, when a source is live, writes it into the source
      without restarting it. */
  function SetPlaybackRate(d: Deck, rate: real): (r: Deck)
    ensures r.playbackRate == rate
    ensures r.source.Some? <==> d.source.Some?
    ensures r.source.Some? ==> r.source.value == d.source.value.(playbackRate := rate)
    ensures r.(playbackRate := d.playbackRate, source := d.source) == d
    ensures Valid(d) ==> Valid(r)
  {
    d.(playbackRate := rate,
       source := if d.source.Some? then Some(d.source.value.(playbackRate := rate)) else None)
  }

  /** Sets the loop flag and overwrites each loop bound only when that bound
      is supplied; a live source takes the flag, and the bounds when looping
      is switched on. Transport is untouched. */
  function SetLoop(d: Deck, enabled: bool, start: Option<real>, end: Option<real>): (r: Deck)
    ensures r.loop == enabled
    ensures r.loopStart == (if start.Some? then start.value else d.loopStart)
    ensures r.loopEnd == (if end.Some? then end.value else d.loopEnd)
    ensures r.source.Some? <==> d.source.Some?
    ensures r.source.Some? ==> r.source.value.loop == enabled
    ensures r.source.Some? && enabled ==>
              r.source.value.loopStart == r.loopStart && r.source.value.loopEnd == r.loopEnd
    ensures r.source.Some? && !enabled ==> r.source.value == d.source.value.(loop := false)
    ensures r.(loop := d.loop, loopStart := d.loopStart, loopEnd := d.loopEnd, source := d.source) == d
    ensures Valid(d) ==> Valid(r)
  {
    var bounded := d.(loop := enabled,
                      loopStart := if start.Some? then start.value else d.loopStart,
                      loopEnd := if end.Some? then end.value else d.loopEnd);
    if bounded.source.None? then bounded
    else
      var s := bounded.source.value.(loop := enabled);
      bounded.(source := Some(if enabled then s.(loopStart := bounded.loopStart, loopEnd := bounded.loopEnd) else s))
  }

  /** The platform's `ended` event of a source, delivered separately: unless
      looping it clears `playing` and rewinds to 0. It leaves the source
      reference in place. */
  function SourceEnded(d: Deck): (r: Deck)
    ensures d.loop ==> r == d
    ensures !d.loop ==> !r.playing && r.position == 0.0 && r.(playing := d.playing, position := d.position) == d
    ensures Valid(d) ==> Valid(r)
  {
    if d.loop then d else d.(playing := false, position := 0.0)
  }

  /** The `ended` handler does not ask which source ended, and the platform
      also delivers `ended` for a source that was stopped. When that event
      arrives for the source a pause tore down, a non-looping deck loses
      the position the pause stored. */
  lemma StaleEndedAfterPause(d: Deck, clock: real, later: real)
    requires d.playing && !d.loop
    ensures CurrentPosition(Pause(d, clock), later) == CurrentPosition(d, clock)
    ensures CurrentPosition(SourceEnded(Pause(d, clock)), later) == 0.0
  {
  }

  /** The same event for the source a seek replaced leaves a non-looping
      deck marked stopped at 0 while the new source is still live. */
  lemma StaleEndedAfterSeek(d: Deck, position: real, clock: real)
    requires Valid(d) && d.playing && !d.loop
    ensures var r := SourceEnded(Seek(d, position, clock));
            !r.playing && r.source.Some? && r.position == 0.0
  {
  }

  /** Only `play` (directly, or inside `seek` on a deck that already played)
      can make a deck play: every other transition keeps a stopped deck
      stopped. */
  lemma OnlyPlayStartsPlayback(d: Deck, b: Buffer, clock: real, x: real, enabled: bool,
                               start: Option<real>, end: Option<real>)
    requires !d.playing
    ensures !Load(d, b).playing && !Stop(d).playing && !Pause(d, clock).playing
    ensures !Seek(d, x, clock).playing && !SetPlaybackRate(d, x).playing
    ensures !SetLoop(d, enabled, start, end).playing && !SourceEnded(d).playing
    ensures Play(d, clock).playing <==> d.buffer.Some?
  {
  }
}

=== FILE: download.dfy ===
/** The recording file name of `download.ts`: a sanitised title, an
    underscore, a timestamp taken from the ISO-8601 form of the current
    time, and the `.webm` extension. The current time enters as its
    `toISOString()` text. A `char` is one Unicode character; the code
    works on UTF-16 units instead, which differs only for characters
    outside the Basic Multilingual Plane. */
module Download {
  import opened JsNumber
  import opened Optional

  const DefaultName: string := "mix"
  const Extension: string := ".webm"

  /** The characters `[a-z0-9]` with the `i` flag accepts. */
  predicate IsAsciiAlnum(c: char)
  {
    ('a' <= c <= 'z') || ('A' <= c <= 'Z') || ('0' <= c <= '9')
  }

  /** `replace(/[^a-z0-9]/gi, '_')`. */
  function Sanitize(s: string): (r: string)
    ensures |r| == |s|
    ensures forall i :: 0 <= i < |s| ==> (IsAsciiAlnum(s[i]) ==> r[i] == s[i]) && (!IsAsciiAlnum(s[i]) ==> r[i] == '_')
  {
    seq(|s|, i requires 0 <= i < |s| => if IsAsciiAlnum(s[i]) then s[i] else '_')
  }

  /** The title, or `mix` when it is absent or empty (both falsy). */
  function SafeName(title: Option<string>): (r: string)
    ensures title.None? || title == Some("") ==> r == DefaultName
    ensures title.Some? && title.value != "" ==> r == Sanitize(title.value)
    ensures |r| > 0
    ensures forall i :: 0 <= i < |r| ==> IsAsciiAlnum(r[i]) || r[i] == '_'
  {
    if title.None? || title.value == "" then DefaultName else Sanitize(title.value)
  }

  /** Sanitising a safe name changes nothing. */
  lemma SafeNameIdempotent(title: Option<string>)
    ensures SafeName(Some(SafeName(title))) == SafeName(title)
  {
    var r := SafeName(title);
    assert Sanitize(r) == r;
  }

  /** `replace(/[:.]/g, '-')`. */
  function DashSeparators(s: string): (r: string)
    ensures |r| == |s|
    ensures forall i :: 0 <= i < |s| ==> r[i] == (if s[i] == ':' || s[i] == '.' then '-' else s[i])
  {
    seq(|s|, i requires 0 <= i < |s| => if s[i] == ':' || s[i] == '.' then '-' else s[i])
  }

  /** `slice(0, -5)`: all but the last five characters, or nothing when
      there are fewer. */
  function DropLastFive(s: string): (r: string)
    ensures |s| >= 5 ==> r == s[..|s| - 5]
    ensures |s| < 5 ==> r == ""
  {
    if |s| >= 5 then s[..|s| - 5] else ""
  }

  function Timestamp(iso: string): (t: string)
    ensures forall i :: 0 <= i < |t| ==> t[i] != ':' && t[i] != '.'
  {
    DropLastFive(DashSeparators(iso))
  }

  predicate IsDigit(c: char)
  {
    '0' <= c <= '9'
  }

  /** The shape of `toISOString()` for years 0 to 9999:
      `YYYY-MM-DDTHH:mm:ss.sssZ`. */
  predicate IsIsoString(s: string)
  {
    && |s| == 24
    && s[4] == '-' && s[7] == '-' && s[10] == 'T' && s[13] == ':' && s[16] == ':' && s[19] == '.' && s[23] == 'Z'
    && forall i :: 0 <= i < 23 && i !in {4, 7, 10, 13, 16, 19} ==> IsDigit(s[i])
  }

  /** On an ISO string the timestamp is the date and the time to the second,
      with the two colons turned into dashes; milliseconds and zone go. */
  lemma TimestampOfIso(iso: string)
    requires IsIsoString(iso)
    ensures Timestamp(iso) == iso[..13] + "-" + iso[14..16] + "-" + iso[17..19]
    ensures |Timestamp(iso)| == 19
  {
    var t := Timestamp(iso);
    var expected := iso[..13] + "-" + iso[14..16] + "-" + iso[17..19];
    assert |t| == 19 == |expected|;
    forall i | 0 <= i < 19
      ensures t[i] == expected[i]
    {
      if i < 13 {
        assert IsDigit(iso[i]) || iso[i] == '-' || iso[i] == 'T';
      } else if 13 < i < 16 {
        assert IsDigit(iso[i]);
      } else if 16 < i {
        assert IsDigit(iso[i]);
      }
    }
  }

  /** `${safeName}_${timestamp}.webm`. */
  function GenerateMixFilename(title: Option<string>, iso: string): (name: string)
    ensures |name| == |SafeName(title)| + 1 + |Timestamp(iso)| + |Extension|
    ensures name[..|SafeName(title)|] == SafeName(title)
    ensures name[|SafeName(title)|] == '_'
    ensures name[|name| - |Extension|..] == Extension
    ensures name[|SafeName(title)| + 1 .. |name| - |Extension|] == Timestamp(iso)
  {
    SafeName(title) + "_" + Timestamp(iso) + Extension
  }

  /** With a well-formed clock reading the name part can be read back from
      the file name: it is everything before the last 25 characters. */
  lemma NameRecoverable(title: Option<string>, iso: string)
    requires IsIsoString(iso)
    ensures var f := GenerateMixFilename(title, iso);
            |f| >= 25 && f[..|f| - 25] == SafeName(title)
  {
    TimestampOfIso(iso);
  }
}

=== FILE: effects.dfy ===
/** The per-deck effect chain of `effects.ts`: the parameter record its
    three setters write, and the fixed routing between its nodes. The
    audio processing the nodes perform is not modelled; the record holds
    the values the setters last wrote to each node's parameter. */
module Effects {

  datatype FilterType = Lowpass | Highpass

  datatype EffectParams = EffectParams(
    filterType: FilterType,
    filterFrequency: real,
    filterQ: real,
    echoDelayTime: real,
    echoFeedback: real,
    echoMix: real,
    reverbMix: real,
    dryGain: real)

  /** The gain a gain node has before anything writes it. */
  const NodeDefaultGain: real := 1.0

  /** The parameters right after the chain is built: lowpass at 20 kHz
      with Q 1, a 375 ms echo with no feedback and no echo or reverb in the
      mix; the dry gain is never written and keeps the node default. A
      fresh chain is therefore already in the state that a lowpass-20000
      filter write and a (0.375, 0, 0) echo write put it in. */
  function Initial(): (p: EffectParams)
    ensures SetFilter(p, Lowpass, 20000.0) == p
    ensures SetEcho(p, 0.375, 0.0, 0.0) == p
    ensures p.filterQ == 1.0 && p.reverbMix == 0.0
  {
    EffectParams(Lowpass, 20000.0, 1.0, 0.375, 0.0, 0.0, 0.0, NodeDefaultGain)
  }

  /** Switches the filter kind and moves its cutoff; nothing else moves. */
  function SetFilter(p: EffectParams, kind: FilterType, frequency: real): (r: EffectParams)
    ensures r.filterType == kind && r.filterFrequency == frequency
    ensures r.(filterType := p.filterType, filterFrequency := p.filterFrequency) == p
  {
    p.(filterType := kind, filterFrequency := frequency)
  }

  /** Writes the echo delay, feedback (unclamped) and mix, and pulls the
      dry gain down by half the echo mix. Filter and reverb are untouched. */
  function SetEcho(p: EffectParams, time: real, feedback: real, mix: real): (r: EffectParams)
    ensures r.echoDelayTime == time && r.echoFeedback == feedback && r.echoMix == mix
    ensures r.dryGain + 0.5 * mix == 1.0
    ensures r.filterType == p.filterType && r.filterFrequency == p.filterFrequency
    ensures r.filterQ == p.filterQ && r.reverbMix == p.reverbMix
  {
    p.(echoDelayTime := time, echoFeedback := feedback, echoMix := mix, dryGain := 1.0 - mix * 0.5)
  }

  /** Writes the reverb mix and pulls the dry gain down by 0.3 of it. Filter
      and echo are untouched. */
  function SetReverb(p: EffectParams, mix: real): (r: EffectParams)
    ensures r.reverbMix == mix
    ensures r.dryGain + 0.3 * mix == 1.0
    ensures r.filterType == p.filterType && r.filterFrequency == p.filterFrequency
    ensures r.filterQ == p.filterQ
    ensures r.echoDelayTime == p.echoDelayTime && r.echoFeedback == p.echoFeedback
    ensures r.echoMix == p.echoMix
  {
    p.(reverbMix := mix, dryGain := 1.0 - mix * 0.3)
  }

  /** Each setter applied twice with the same arguments is applied once. */
  lemma SettersIdempotent(p: EffectParams, kind: FilterType, f: real, t: real, fb: real, m: real)
    ensures SetFilter(SetFilter(p, kind, f), kind, f) == SetFilter(p, kind, f)
    ensures SetEcho(SetEcho(p, t, fb, m), t, fb, m) == SetEcho(p, t, fb, m)
    ensures SetReverb(SetReverb(p, m), m) == SetReverb(p, m)
  {
  }

  /** The dry gain belongs to whichever of echo and reverb wrote last, so
      the two setters commute exactly when both would leave the same dry
      gain. */
  lemma EchoReverbCommuteIff(p: EffectParams, t: real, fb: real, em: real, rm: real)
    ensures SetReverb(SetEcho(p, t, fb, em), rm).dryGain == 1.0 - 0.3 * rm
    ensures SetEcho(SetReverb(p, rm), t, fb, em).dryGain == 1.0 - 0.5 * em
    ensures SetReverb(SetEcho(p, t, fb, em), rm) == SetEcho(SetReverb(p, rm), t, fb, em)
            <==> 0.3 * rm == 0.5 * em
  {
    var x := SetReverb(SetEcho(p, t, fb, em), rm);
    var y := SetEcho(SetReverb(p, rm), t, fb, em);
    if x == y {
      assert x.dryGain == y.dryGain;
    }
  }

  /** The nodes of one chain. */
  datatype Node =
    | Input | Filter | EchoDelay | EchoFeedback | EchoMix
    | ReverbConvolver | ReverbMix | DryGain | Output

  /** The connections made when the chain is built. */
  function Routing(): (edges: set<(Node, Node)>)
    ensures (EchoDelay, EchoFeedback) in edges && (EchoFeedback, EchoDelay) in edges
  {
    {
      (Input, Filter),
      (Filter, EchoDelay), (EchoDelay, EchoFeedback), (EchoFeedback, EchoDelay),
      (EchoDelay, EchoMix),
      (Filter, ReverbConvolver), (ReverbConvolver, ReverbMix),
      (Filter, DryGain),
      (DryGain, Output), (EchoMix, Output), (ReverbMix, Output)
    }
  }

  /** The one edge that points back: echo feedback into the delay line. */
  const FeedbackEdge: (Node, Node) := (EchoFeedback, EchoDelay)

  /** A topological depth of each node once the feedback edge is removed. */
  function Depth(n: Node): nat
  {
    match n
    case Input => 0
    case Filter => 1
    case EchoDelay => 2
    case ReverbConvolver => 2
    case DryGain => 2
    case EchoFeedback => 3
    case EchoMix => 3
    case ReverbMix => 3
    case Output => 4
  }

  function Successors(n: Node): set<Node>
  {
    set e | e in Routing() && e.0 == n :: e.1
  }

  function Predecessors(n: Node): set<Node>
  {
    set e | e in Routing() && e.1 == n :: e.0
  }

  /** The filter is the only thing fed by the input; dry, echo mix and
      reverb mix are exactly what sums into the output. */
  lemma RoutingShape()
    ensures Successors(Input) == {Filter}
    ensures Predecessors(Output) == {DryGain, EchoMix, ReverbMix}
    ensures Successors(Output) == {}
    ensures Predecessors(Input) == {}
  {
    assert (Input, Filter) in Routing();
    assert (DryGain, Output) in Routing() && (EchoMix, Output) in Routing() && (ReverbMix, Output) in Routing();
  }

  /** Every edge except the feedback edge goes strictly deeper. */
  lemma EdgesDeepen(e: (Node, Node))
    requires e in Routing() && e != FeedbackEdge
    ensures Depth(e.0) < Depth(e.1)
  {
  }

  /** A walk along the routing: consecutive nodes are connected. */
  ghost predicate IsPath(p: seq<Node>)
  {
    forall i :: 0 <= i < |p| - 1 ==> (p[i], p[i + 1]) in Routing()
  }

  ghost predicate UsesFeedback(p: seq<Node>)
  {
    exists i :: 0 <= i < |p| - 1 && (p[i], p[i + 1]) == FeedbackEdge
  }

  /** A walk of at least one step that avoids the feedback edge ends
      strictly deeper than it started. */
  lemma {:induction false} WalkWithoutFeedbackDeepens(p: seq<Node>)
    requires |p| >= 2 && IsPath(p)
    requires forall i :: 0 <= i < |p| - 1 ==> (p[i], p[i + 1]) != FeedbackEdge
    ensures Depth(p[0]) < Depth(p[|p| - 1])
    decreases |p|
  {
    EdgesDeepen((p[0], p[1]));
    if |p| > 2 {
      var t := p[1..];
      forall i | 0 <= i < |t| - 1
        ensures (t[i], t[i + 1]) in Routing() && (t[i], t[i + 1]) != FeedbackEdge
      {
        assert t[i] == p[i + 1] && t[i + 1] == p[i + 2];
      }
      WalkWithoutFeedbackDeepens(t);
    }
  }

  /** Every cycle of the routing runs through echo feedback into the delay
      line, and that two-node loop is a cycle. */
  lemma OnlyCycleIsEchoFeedback(p: seq<Node>)
    requires |p| >= 2 && IsPath(p) && p[0] == p[|p| - 1]
    ensures UsesFeedback(p)
  {
    if !UsesFeedback(p) {
      WalkWithoutFeedbackDeepens(p);
    }
  }

  lemma EchoLoopIsCycle()
    ensures IsPath([EchoDelay, EchoFeedback, EchoDelay])
  {
  }
}

=== FILE: js_number.dfy ===
/** JavaScript number semantics the mixer relies on, stated over exact
    reals and integers: `Math.round`, `Math.floor`, truncation toward zero,
    the `%` operator (result takes the sign of the dividend) and the
    `Math.max(lo, Math.min(hi, x))` clamp idiom. */
module JsNumber {

  function Abs(x: real): (r: real)
    ensures r >= 0.0 && (r == x || r == -x)
  {
    if x < 0.0 then -x else x
  }

  function Min(a: real, b: real): (r: real)
    ensures r <= a && r <= b && (r == a || r == b)
  {
    if a <= b then a else b
  }

  function Max(a: real, b: real): (r: real)
    ensures r >= a && r >= b && (r == a || r == b)
  {
    if a >= b then a else b
  }

  /** `Math.max(lo, Math.min(hi, x))`. */
  function Clamp(lo: real, hi: real, x: real): (r: real)
    requires lo <= hi
    ensures lo <= r <= hi
    ensures lo <= x <= hi ==> r == x
    ensures x < lo ==> r == lo
    ensures x > hi ==> r == hi
  {
    Max(lo, Min(hi, x))
  }

  /** `Math.floor`. */
  function Floor(x: real): (r: int)
    ensures r as real <= x < r as real + 1.0
  {
    x.Floor
  }

  /** `Math.ceil`. */
  function Ceil(x: real): (r: int)
    ensures x <= r as real < x + 1.0
  {
    -Floor(-x)
  }

  /** `Math.round`: the nearest integer, halves rounded toward +infinity. */
  function Round(x: real): (r: int)
    ensures x - 0.5 < r as real <= x + 0.5
  {
    Floor(x + 0.5)
  }

  /** Truncation toward zero, the integer part used by `%`. */
  function Trunc(x: real): (r: int)
    ensures x >= 0.0 ==> r == Floor(x)
    ensures x < 0.0 ==> r == -Floor(-x)
    ensures Abs(r as real) <= Abs(x)
  {
    if x >= 0.0 then Floor(x) else -Floor(-x)
  }

  /** `a % b` on integral numbers: magnitude |a| mod |b|, sign of `a`. */
  function RemInt(a: int, b: int): (r: int)
    requires b != 0
    ensures a >= 0 ==> 0 <= r < (if b < 0 then -b else b)
    ensures a < 0 ==> -(if b < 0 then -b else b) < r <= 0
    ensures (a - r) % b == 0
  {
    var m := if b < 0 then -b else b;
    var q := if a >= 0 then a / m else -((-a) / m);
    var r := if a >= 0 then a % m else -((-a) % m);
    assert a - r == q * m;
    assert q * m == (if b < 0 then -q else q) * b;
    MultipleHasNoRemainder(if b < 0 then -q else q, b);
    r
  }

  /** A whole multiple of `b` leaves no remainder. */
  lemma MultipleHasNoRemainder(q: int, b: int)
    requires b != 0
    ensures (q * b) % b == 0
  {
    var x := q * b;
    var d := q - x / b;
    assert x == (x / b) * b + x % b;
    assert d * b == x % b;
    if d != 0 {
      ProductAtLeastFactor(d, b);
    }
  }

  /** A non-zero multiple of `b` is at least `|b|` away from 0. */
  lemma ProductAtLeastFactor(d: int, b: int)
    requires d != 0 && b != 0
    ensures d * b >= (if b < 0 then -b else b) || d * b <= -(if b < 0 then -b else b)
  {
    var m := if b < 0 then -b else b;
    var n := if d < 0 then -d else d;
    assert n * m >= m by {
      assert n * m == (n - 1) * m + m;
      assert (n - 1) * m >= 0;
    }
    assert d * b == n * m || d * b == -(n * m);
  }

  /** `a % b` on non-integral numbers: `a - b * trunc(a / b)`. */
  function RemReal(a: real, b: real): (r: real)
    requires b != 0.0
  {
    a - b * Trunc(a / b) as real
  }

  /** For a non-negative dividend and a positive divisor the remainder lies
      in `[0, b)` and differs from `a` by a whole number of `b`s. */
  lemma RemRealRange(a: real, b: real)
    requires a >= 0.0 && b > 0.0
    ensures 0.0 <= RemReal(a, b) < b
    ensures RemReal(a, b) == a - b * Floor(a / b) as real
  {
    var q := a / b;
    var fr := Floor(q) as real;
    assert q * b == a;
    assert q >= 0.0 by {
      if q < 0.0 {
        MulStrictMonotone(q, 0.0, b);
      }
    }
    assert RemReal(a, b) == a - b * fr;
    FloorBounds(a, b, q, fr);
  }

  lemma FloorBounds(a: real, b: real, q: real, fr: real)
    requires b > 0.0 && q * b == a && fr <= q < fr + 1.0
    ensures fr * b <= a < fr * b + b
  {
    assert fr * b <= a by {
      MulMonotone(fr, q, b);
    }
    BelowNextMultiple(a, b, q, fr);
  }

  lemma BelowNextMultiple(a: real, b: real, q: real, fr: real)
    requires b > 0.0 && q * b == a && q < fr + 1.0
    ensures a < fr * b + b
  {
    MulStrictMonotone(q, fr + 1.0, b);
    assert (fr + 1.0) * b == fr * b + b;
  }

  /** A dividend already inside `[0, b)` is its own remainder. */
  lemma RemRealOfSmall(a: real, b: real)
    requires 0.0 <= a < b
    ensures RemReal(a, b) == a
  {
    var q := a / b;
    assert q * b == a;
    assert q < 1.0 by {
      if q >= 1.0 {
        MulMonotone(1.0, q, b);
      }
    }
    assert Floor(q) == 0;
  }

  lemma MulMonotone(x: real, y: real, c: real)
    requires x <= y && c >= 0.0
    ensures x * c <= y * c
  {
  }

  lemma MulStrictMonotone(x: real, y: real, c: real)
    requires x < y && c > 0.0
    ensures x * c < y * c
  {
  }
}

=== FILE: optional.dfy ===
/** An optional value: a missing buffer, an unsupplied argument, an
    absent analysis or title. */
module Optional {
  datatype Option<+T> = None | Some(value: T)
}

=== FILE: pcm.dfy ===
/** The decoded PCM buffer the platform hands to the mixer. Only the first
    channel is ever read, so a buffer is that channel plus its sample rate.
    The platform never produces an empty buffer or a non-positive sample
    rate, which the subset type `Buffer` records. */
module Pcm {

  datatype AudioBuffer = AudioBuffer(channelData: seq<real>, sampleRate: real)

  type Buffer = b: AudioBuffer | |b.channelData| > 0 && b.sampleRate > 0.0
    witness AudioBuffer([0.0], 44100.0)

  /** Length in seconds: sample count over sample rate. */
  function Duration(b: Buffer): (d: real)
    ensures d > 0.0
  {
    |b.channelData| as real / b.sampleRate
  }
}

=== FILE: recommend.dfy ===
/** Next-track recommendation of `recommend.ts`. Each analysed library
    track other than the current one gets points for tempo closeness, an
    equal key and energy progression, plus a random term in `[0, 10)`; the
    scored tracks are sorted by descending score and the first `count` are
    returned. The random draws are an input sequence, one per library
    track. */
module Recommend {
  import opened JsNumber
  import opened Optional
  import TrackAnalysis

  datatype Track = Track(id: string, analysis: Option<TrackAnalysis.AnalysisResult>)

  datatype TrackScore = TrackScore(track: Track, score: real, reasons: seq<string>)

  const PerfectBpm: string := "Perfect BPM match"
  const CloseBpm: string := "Close BPM"
  const SameKey: string := "Same key"
  const EnergyBuilds: string := "Energy builds"
  const SimilarEnergy: string := "Similar energy"

  const DefaultCount: int := 5

  function AbsInt(x: int): nat
  {
    if x < 0 then -x else x
  }

  /** A candidate: a different track that has been analysed. */
  predicate Eligible(currentId: string, t: Track)
  {
    t.id != currentId && t.analysis.Some?
  }

  /** Tempo points by absolute BPM difference. */
  function BpmPoints(bpmDiff: nat): (p: int)
    ensures p == 40 || p == 25 || p == 10 || p == 0
  {
    if bpmDiff < 5 then 40 else if bpmDiff < 10 then 25 else if bpmDiff < 20 then 10 else 0
  }

  /** A closer tempo never earns fewer points. */
  lemma BpmPointsNonIncreasing(d1: nat, d2: nat)
    requires d1 <= d2
    ensures BpmPoints(d1) >= BpmPoints(d2)
  {
  }

  /** Energy points by signed energy difference (candidate minus current):
      a moderate rise beats a near-equal energy. */
  function EnergyPoints(energyDiff: int): (p: int)
    ensures p == 20 || p == 15 || p == 0
  {
    if 0 < energyDiff < 20 then 20 else if AbsInt(energyDiff) < 10 then 15 else 0
  }

  function KeyPoints(currentKey: string, key: string): (p: int)
    ensures p == 30 || p == 0
  {
    if key == currentKey then 30 else 0
  }

  function BpmReasons(bpmDiff: nat): seq<string>
  {
    if bpmDiff < 5 then [PerfectBpm] else if bpmDiff < 10 then [CloseBpm] else []
  }

  function KeyReasons(currentKey: string, key: string): seq<string>
  {
    if key == currentKey then [SameKey] else []
  }

  function EnergyReasons(energyDiff: int): seq<string>
  {
    if 0 < energyDiff < 20 then [EnergyBuilds] else if AbsInt(energyDiff) < 10 then [SimilarEnergy] else []
  }

  /** Scores one candidate against the current track's analysis. */
  function Score(current: TrackAnalysis.AnalysisResult, t: Track, noise: real): (s: TrackScore)
    requires t.analysis.Some?
    ensures s.track == t
  {
    var a := t.analysis.value;
    var bpmDiff := AbsInt(a.bpm - current.bpm);
    var energyDiff := a.energy - current.energy;
    TrackScore(t,
               (BpmPoints(bpmDiff) + KeyPoints(current.key, a.key) + EnergyPoints(energyDiff)) as real + noise,
               BpmReasons(bpmDiff) + KeyReasons(current.key, a.key) + EnergyReasons(energyDiff))
  }

  /** Each reason is listed exactly when its condition holds, and the score
      is the random term plus the points those reasons name, plus 10 for a
      tempo difference in `[10, 20)`, which earns points but no reason. With
      the random term in `[0, 10)` the score lies in `[0, 100)`. */
  lemma ScoreMatchesReasons(current: TrackAnalysis.AnalysisResult, t: Track, noise: real)
    requires t.analysis.Some?
    ensures var s := Score(current, t, noise);
            var a := t.analysis.value;
            var bpmDiff := AbsInt(a.bpm - current.bpm);
            var energyDiff := a.energy - current.energy;
            && (PerfectBpm in s.reasons <==> bpmDiff < 5)
            && (CloseBpm in s.reasons <==> 5 <= bpmDiff < 10)
            && (SameKey in s.reasons <==> a.key == current.key)
            && (EnergyBuilds in s.reasons <==> 0 < energyDiff < 20)
            && (SimilarEnergy in s.reasons <==> !(0 < energyDiff < 20) && -10 < energyDiff < 10)
            && |s.reasons| <= 3
            && s.score - noise
               == (if PerfectBpm in s.reasons then 40.0 else 0.0)
                  + (if CloseBpm in s.reasons then 25.0 else 0.0)
                  + (if 10 <= bpmDiff < 20 then 10.0 else 0.0)
                  + (if SameKey in s.reasons then 30.0 else 0.0)
                  + (if EnergyBuilds in s.reasons then 20.0 else 0.0)
                  + (if SimilarEnergy in s.reasons then 15.0 else 0.0)
            && (0.0 <= noise < 10.0 ==> 0.0 <= s.score < 100.0)
  {
  }

  /** The random draws of `Math.random() * 10`, one per library track. */
  predicate ValidNoise(tracks: seq<Track>, noise: seq<real>)
  {
    |noise| == |tracks| && forall k :: 0 <= k < |noise| ==> 0.0 <= noise[k] < 10.0
  }

  /** The library positions of the candidates, in increasing order: each
      candidate's position exactly once. */
  function EligibleIndices(currentId: string, tracks: seq<Track>): (idx: seq<nat>)
    ensures forall j :: 0 <= j < |idx| ==> idx[j] < |tracks| && Eligible(currentId, tracks[idx[j]])
    ensures forall i, j :: 0 <= i < j < |idx| ==> idx[i] < idx[j]
    ensures forall k :: 0 <= k < |tracks| && Eligible(currentId, tracks[k]) ==> k in idx
  {
    if |tracks| == 0 then []
    else
      var n := |tracks| - 1;
      var pre := EligibleIndices(currentId, tracks[..n]);
      assert forall j :: 0 <= j < |pre| ==> tracks[..n][pre[j]] == tracks[pre[j]];
      pre + (if Eligible(currentId, tracks[n]) then [n] else [])
  }

  /** How many library tracks are candidates. */
  function EligibleCount(currentId: string, tracks: seq<Track>): (n: nat)
    ensures n <= |tracks|
  {
    var idx := EligibleIndices(currentId, tracks);
    IncreasingBelowBound(idx, |tracks|);
    |idx|
  }

  /** A strictly increasing sequence of positions below `bound` has at most
      `bound` entries. */
  lemma {:induction false} IncreasingBelowBound(idx: seq<nat>, bound: nat)
    requires forall j :: 0 <= j < |idx| ==> idx[j] < bound
    requires forall i, j :: 0 <= i < j < |idx| ==> idx[i] < idx[j]
    ensures |idx| <= bound
    decreases bound
  {
    if |idx| > 0 {
      var m := |idx| - 1;
      assert forall j :: 0 <= j < m ==> idx[..m][j] == idx[j] && idx[j] < idx[m];
      IncreasingBelowBound(idx[..m], idx[m]);
    }
  }

  /** The filter and map: the candidates scored in library order, each with
      its own draw, one entry per candidate. */
  function ScoreAll(current: TrackAnalysis.AnalysisResult, currentId: string, tracks: seq<Track>,
                    noise: seq<real>): (r: seq<TrackScore>)
    requires ValidNoise(tracks, noise)
    ensures |r| == EligibleCount(currentId, tracks)
    ensures forall j :: 0 <= j < |r| ==>
              r[j] == Score(current, tracks[EligibleIndices(currentId, tracks)[j]],
                            noise[EligibleIndices(currentId, tracks)[j]])
    ensures forall s :: s in r ==>
              exists k :: 0 <= k < |tracks| && Eligible(currentId, tracks[k]) && s == Score(current, tracks[k], noise[k])
    ensures forall s :: s in r ==> s.track in tracks && Eligible(currentId, s.track) && 0.0 <= s.score < 100.0
    ensures forall k :: 0 <= k < |tracks| && Eligible(currentId, tracks[k]) ==>
              Score(current, tracks[k], noise[k]) in r
  {
    if |tracks| == 0 then []
    else
      var n := |tracks| - 1;
      var pre := ScoreAll(current, currentId, tracks[..n], noise[..n]);
      var r := pre + (if Eligible(currentId, tracks[n]) then [Score(current, tracks[n], noise[n])] else []);
      ScoreAllStep(current, currentId, tracks, noise, pre, r);
      ScoredByIndexFacts(current, currentId, tracks, noise, r);
      r
  }

  /** Extending the library by one track extends the scored list by that
      track's entry exactly when it is a candidate. */
  lemma ScoreAllStep(current: TrackAnalysis.AnalysisResult, currentId: string, tracks: seq<Track>,
                     noise: seq<real>, pre: seq<TrackScore>, r: seq<TrackScore>)
    requires ValidNoise(tracks, noise) && |tracks| > 0
    requires var n := |tracks| - 1;
             && |pre| == |EligibleIndices(currentId, tracks[..n])|
             && (forall j :: 0 <= j < |pre| ==>
                   pre[j] == Score(current, tracks[..n][EligibleIndices(currentId, tracks[..n])[j]],
                                   noise[..n][EligibleIndices(currentId, tracks[..n])[j]]))
             && r == pre + (if Eligible(currentId, tracks[n]) then [Score(current, tracks[n], noise[n])] else [])
    ensures |r| == |EligibleIndices(currentId, tracks)|
    ensures forall j :: 0 <= j < |r| ==>
              r[j] == Score(current, tracks[EligibleIndices(currentId, tracks)[j]],
                            noise[EligibleIndices(currentId, tracks)[j]])
  {
    var n := |tracks| - 1;
    var ip := EligibleIndices(currentId, tracks[..n]);
    var idx := EligibleIndices(currentId, tracks);
    assert idx == ip + (if Eligible(currentId, tracks[n]) then [n] else []);
    forall j | 0 <= j < |r|
      ensures r[j] == Score(current, tracks[idx[j]], noise[idx[j]])
    {
      if j < |pre| {
        assert idx[j] == ip[j] && ip[j] < n;
        assert tracks[..n][ip[j]] == tracks[ip[j]] && noise[..n][ip[j]] == noise[ip[j]];
      }
    }
  }

  /** A list that is the candidates scored in library order holds only
      candidates' entries, each in `[0, 100)`, and every candidate's entry. */
  lemma ScoredByIndexFacts(current: TrackAnalysis.AnalysisResult, currentId: string, tracks: seq<Track>,
                           noise: seq<real>, r: seq<TrackScore>)
    requires ValidNoise(tracks, noise)
    requires |r| == |EligibleIndices(currentId, tracks)|
    requires forall j :: 0 <= j < |r| ==>
               r[j] == Score(current, tracks[EligibleIndices(currentId, tracks)[j]],
                             noise[EligibleIndices(currentId, tracks)[j]])
    ensures forall s :: s in r ==>
              exists k :: 0 <= k < |tracks| && Eligible(currentId, tracks[k]) && s == Score(current, tracks[k], noise[k])
    ensures forall s :: s in r ==> s.track in tracks && Eligible(currentId, s.track) && 0.0 <= s.score < 100.0
    ensures forall k :: 0 <= k < |tracks| && Eligible(currentId, tracks[k]) ==>
              Score(current, tracks[k], noise[k]) in r
  {
    var idx := EligibleIndices(currentId, tracks);
    forall s | s in r
      ensures exists k :: 0 <= k < |tracks| && Eligible(currentId, tracks[k]) && s == Score(current, tracks[k], noise[k])
      ensures s.track in tracks && Eligible(currentId, s.track) && 0.0 <= s.score < 100.0
    {
      var j :| 0 <= j < |r| && r[j] == s;
      var k := idx[j];
      ScoreMatchesReasons(current, tracks[k], noise[k]);
    }
    forall k | 0 <= k < |tracks| && Eligible(currentId, tracks[k])
      ensures Score(current, tracks[k], noise[k]) in r
    {
      var j :| 0 <= j < |idx| && idx[j] == k;
      assert r[j] == Score(current, tracks[k], noise[k]);
    }
  }

  /** No two library tracks share an id. */
  predicate DistinctIds(tracks: seq<Track>)
  {
    forall i, j :: 0 <= i < j < |tracks| ==> tracks[i].id != tracks[j].id
  }

  /** In a library without repeated ids every scored entry occurs once. */
  lemma ScoredOnce(current: TrackAnalysis.AnalysisResult, currentId: string, tracks: seq<Track>,
                   noise: seq<real>, x: TrackScore)
    requires ValidNoise(tracks, noise) && DistinctIds(tracks)
    ensures multiset(ScoreAll(current, currentId, tracks, noise))[x] <= 1
  {
    var r := ScoreAll(current, currentId, tracks, noise);
    var idx := EligibleIndices(currentId, tracks);
    forall i, j | 0 <= i < j < |r|
      ensures r[i] != r[j]
    {
      assert r[i].track == tracks[idx[i]] && r[j].track == tracks[idx[j]];
      assert idx[i] < idx[j];
    }
    DistinctMeansOnce(r, x);
  }

  /** A sequence without repeated entries holds each value at most once. */
  lemma {:induction false} DistinctMeansOnce(s: seq<TrackScore>, x: TrackScore)
    requires forall i, j :: 0 <= i < j < |s| ==> s[i] != s[j]
    ensures multiset(s)[x] <= 1
    decreases |s|
  {
    if |s| > 0 {
      var m := |s| - 1;
      assert s == s[..m] + [s[m]];
      DistinctMeansOnce(s[..m], x);
      if x == s[m] {
        assert x !in s[..m];
      }
    }
  }

  /** A sequence in which nothing occurs twice has no repeated entry. */
  lemma OnceMeansDistinct(s: seq<TrackScore>)
    requires forall x :: multiset(s)[x] <= 1
    ensures forall i, j :: 0 <= i < j < |s| ==> s[i] != s[j]
  {
    forall i, j | 0 <= i < j < |s|
      ensures s[i] != s[j]
    {
      assert s == s[..j] + s[j..];
      assert multiset(s)[s[i]] == multiset(s[..j])[s[i]] + multiset(s[j..])[s[i]];
      assert s[i] in multiset(s[..j]);
      assert s[j] in multiset(s[j..]);
      assert multiset(s)[s[i]] <= 1;
    }
  }

  /** Non-increasing scores. */
  predicate SortedDesc(s: seq<TrackScore>)
  {
    forall i, j :: 0 <= i < j < |s| ==> s[i].score >= s[j].score
  }

  /** Places `x` in front of the first entry that does not score strictly
      higher, so that among equal scores earlier entries stay first. */
  function Insert(x: TrackScore, s: seq<TrackScore>): seq<TrackScore>
  {
    if |s| == 0 || s[0].score <= x.score then [x] + s
    else [s[0]] + Insert(x, s[1..])
  }

  lemma {:induction false} InsertPermutes(x: TrackScore, s: seq<TrackScore>)
    ensures multiset(Insert(x, s)) == multiset(s) + multiset{x}
  {
    if |s| > 0 && s[0].score > x.score {
      InsertPermutes(x, s[1..]);
      assert s == [s[0]] + s[1..];
    }
  }

  lemma {:induction false} InsertKeepsOrder(x: TrackScore, s: seq<TrackScore>)
    requires SortedDesc(s)
    ensures SortedDesc(Insert(x, s))
    ensures |Insert(x, s)| > 0
    ensures Insert(x, s)[0] == x || (|s| > 0 && Insert(x, s)[0] == s[0])
  {
    if |s| > 0 && s[0].score > x.score {
      var rest := Insert(x, s[1..]);
      InsertKeepsOrder(x, s[1..]);
      assert s[0].score >= rest[0].score;
      var r := [s[0]] + rest;
      forall i, j | 0 <= i < j < |r|
        ensures r[i].score >= r[j].score
      {
        if i == 0 {
          assert r[j] == rest[j - 1];
          assert rest[0].score >= rest[j - 1].score;
        } else {
          assert r[i] == rest[i - 1] && r[j] == rest[j - 1];
        }
      }
    }
  }

  /** The `sort` by `b.score - a.score`: descending, a permutation of its
      input. */
  function SortByScore(s: seq<TrackScore>): (r: seq<TrackScore>)
    ensures SortedDesc(r)
    ensures multiset(r) == multiset(s)
    ensures |r| == |s|
  {
    if |s| == 0 then []
    else
      var rest := SortByScore(s[1..]);
      SortStep(s, rest);
      Insert(s[0], rest)
  }

  lemma SortStep(s: seq<TrackScore>, rest: seq<TrackScore>)
    requires |s| > 0 && SortedDesc(rest) && multiset(rest) == multiset(s[1..])
    ensures SortedDesc(Insert(s[0], rest))
    ensures multiset(Insert(s[0], rest)) == multiset(s)
    ensures |Insert(s[0], rest)| == |s|
  {
    InsertPermutes(s[0], rest);
    InsertKeepsOrder(s[0], rest);
    assert s == [s[0]] + s[1..];
  }

  /** Sorting neither adds nor drops an entry. */
  lemma SortKeepsEntries(s: seq<TrackScore>)
    ensures |SortByScore(s)| == |s|
    ensures forall x :: x in SortByScore(s) <==> x in s
  {
    var r := SortByScore(s);
    assert |r| == |multiset(r)| == |multiset(s)| == |s|;
    forall x
      ensures x in r <==> x in s
    {
      assert x in r <==> x in multiset(r);
      assert x in s <==> x in multiset(s);
    }
  }

  /** Where `slice(0, count)` stops on a list of `n` entries. */
  function SliceEnd(n: nat, count: int): (e: nat)
    ensures e <= n
    ensures count >= 0 ==> e == Min(count as real, n as real) as int
    ensures count < 0 ==> e == Max((n + count) as real, 0.0) as int
  {
    if count >= 0 then (if count < n then count else n)
    else if n + count > 0 then n + count else 0
  }

  lemma PrefixKeepsOrder(s: seq<TrackScore>, e: nat)
    requires e <= |s| && SortedDesc(s)
    ensures SortedDesc(s[..e])
    ensures forall x :: x in s[..e] ==> x in s
  {
  }

  function RecommendNextTrack(current: Track, tracks: seq<Track>, count: int, noise: seq<real>): (r: seq<TrackScore>)
    requires ValidNoise(tracks, noise)
    ensures current.analysis.None? ==> r == []
    ensures current.analysis.Some? ==> |r| == SliceEnd(EligibleCount(current.id, tracks), count)
    ensures current.analysis.Some? ==> multiset(r) <= multiset(ScoreAll(current.analysis.value, current.id, tracks, noise))
    ensures count >= 0 ==> |r| <= count
    ensures SortedDesc(r)
    ensures forall s :: s in r ==> s.track in tracks && Eligible(current.id, s.track) && 0.0 <= s.score < 100.0
  {
    if current.analysis.None? then []
    else
      var all := ScoreAll(current.analysis.value, current.id, tracks, noise);
      TopEntries(all, count);
      SortByScore(all)[.. SliceEnd(|all|, count)]
  }

  /** The first `count` entries of the ranking: sorted, as many as
      `slice` keeps, and drawn from the ranked entries without repetition
      beyond theirs. */
  lemma TopEntries(all: seq<TrackScore>, count: int)
    ensures |SortByScore(all)| == |all|
    ensures var top := SortByScore(all)[.. SliceEnd(|all|, count)];
            && SortedDesc(top)
            && multiset(top) <= multiset(all)
            && forall x :: x in top ==> x in all
  {
    var ranked := SortByScore(all);
    var e := SliceEnd(|all|, count);
    PrefixKeepsOrder(ranked, e);
    PrefixSubMultiset(ranked, e);
    var top := ranked[..e];
    assert multiset(top) <= multiset(all);
    forall x | x in top
      ensures x in all
    {
      assert x in multiset(top);
      assert x in multiset(all);
    }
  }

  /** A prefix holds no entry more often than the whole list. */
  lemma PrefixSubMultiset(s: seq<TrackScore>, e: nat)
    requires e <= |s|
    ensures multiset(s[..e]) <= multiset(s)
  {
    assert s == s[..e] + s[e..];
    assert multiset(s) == multiset(s[..e]) + multiset(s[e..]);
  }

  /** With distinct ids in the library no track is recommended twice. */
  lemma DistinctLibraryDistinctPicks(current: Track, tracks: seq<Track>, count: int, noise: seq<real>)
    requires ValidNoise(tracks, noise) && DistinctIds(tracks)
    ensures var r := RecommendNextTrack(current, tracks, count, noise);
            forall i, j :: 0 <= i < j < |r| ==> r[i].track.id != r[j].track.id
  {
    var r := RecommendNextTrack(current, tracks, count, noise);
    if current.analysis.Some? {
      var a := current.analysis.value;
      var all := ScoreAll(a, current.id, tracks, noise);
      PicksOnce(a, current.id, tracks, noise, r);
      forall i, j | 0 <= i < j < |r|
        ensures r[i].track.id != r[j].track.id
      {
        DistinctEntriesDistinctIds(a, current.id, tracks, noise, r[i], r[j]);
      }
    }
  }

  lemma PicksOnce(a: TrackAnalysis.AnalysisResult, currentId: string, tracks: seq<Track>, noise: seq<real>,
                  r: seq<TrackScore>)
    requires ValidNoise(tracks, noise) && DistinctIds(tracks)
    requires multiset(r) <= multiset(ScoreAll(a, currentId, tracks, noise))
    ensures forall i, j :: 0 <= i < j < |r| ==> r[i] != r[j]
    ensures forall x :: x in r ==> x in ScoreAll(a, currentId, tracks, noise)
  {
    var all := ScoreAll(a, currentId, tracks, noise);
    forall x
      ensures multiset(r)[x] <= 1
    {
      ScoredOnce(a, currentId, tracks, noise, x);
    }
    OnceMeansDistinct(r);
    forall x | x in r
      ensures x in all
    {
      assert x in multiset(r);
    }
  }

  /** Two different entries of the scored list belong to different tracks. */
  lemma DistinctEntriesDistinctIds(a: TrackAnalysis.AnalysisResult, currentId: string, tracks: seq<Track>,
                                   noise: seq<real>, x: TrackScore, y: TrackScore)
    requires ValidNoise(tracks, noise) && DistinctIds(tracks)
    requires x in ScoreAll(a, currentId, tracks, noise) && y in ScoreAll(a, currentId, tracks, noise) && x != y
    ensures x.track.id != y.track.id
  {
    var k1 :| 0 <= k1 < |tracks| && Eligible(currentId, tracks[k1]) && x == Score(a, tracks[k1], noise[k1]);
    var k2 :| 0 <= k2 < |tracks| && Eligible(currentId, tracks[k2]) && y == Score(a, tracks[k2], noise[k2]);
    assert k1 != k2;
    assert tracks[k1].id != tracks[k2].id;
  }

  /** Without distinct ids the result can repeat: a candidate listed twice,
      with equal draws, is recommended twice. */
  lemma RepeatedTrackRepeats(current: Track, t: Track, n: real, count: int)
    requires current.analysis.Some? && Eligible(current.id, t) && 0.0 <= n < 10.0 && count >= 2
    ensures var s := Score(current.analysis.value, t, n);
            RecommendNextTrack(current, [t, t], count, [n, n]) == [s, s]
  {
    var a := current.analysis.value;
    var s := Score(a, t, n);
    assert ValidNoise([t, t], [n, n]);
    RecommendUnfolds(current, [t, t], count, [n, n]);
    ScoreTwice(a, current.id, t, n);
    SortPair(s);
  }

  /** With an analysed current track the recommendations are the first
      entries of the ranked scores. */
  lemma RecommendUnfolds(current: Track, tracks: seq<Track>, count: int, noise: seq<real>)
    requires ValidNoise(tracks, noise) && current.analysis.Some?
    ensures var all := ScoreAll(current.analysis.value, current.id, tracks, noise);
            RecommendNextTrack(current, tracks, count, noise) == SortByScore(all)[.. SliceEnd(|all|, count)]
  {
  }

  lemma SortPair(s: TrackScore)
    ensures SortByScore([s, s]) == [s, s]
  {
    assert [s, s][1..] == [s] && [s][1..] == [];
    assert SortByScore([s]) == [s];
  }

  lemma ScoreTwice(a: TrackAnalysis.AnalysisResult, currentId: string, t: Track, n: real)
    requires Eligible(currentId, t) && 0.0 <= n < 10.0
    ensures ScoreAll(a, currentId, [t, t], [n, n]) == [Score(a, t, n), Score(a, t, n)]
  {
    var tracks, noise := [t, t], [n, n];
    IndicesOfPair(currentId, t);
    var r := ScoreAll(a, currentId, tracks, noise);
    var idx := EligibleIndices(currentId, tracks);
    assert tracks[idx[0]] == t && noise[idx[0]] == n;
    assert tracks[idx[1]] == t && noise[idx[1]] == n;
    assert r == [r[0], r[1]];
  }

  lemma IndicesOfPair(currentId: string, t: Track)
    requires Eligible(currentId, t)
    ensures EligibleIndices(currentId, [t, t]) == [0, 1]
    ensures EligibleCount(currentId, [t, t]) == 2
  {
    assert [t, t][..1] == [t] && [t][..0] == [];
    assert EligibleIndices(currentId, [t]) == [0];
  }

  /** The result is a top list: a candidate that was left out scores no
      higher than any that was kept, and with `count` at least the library
      size nobody is left out. */
  lemma RecommendationsAreTop(current: Track, tracks: seq<Track>, count: int, noise: seq<real>, k: nat)
    requires ValidNoise(tracks, noise)
    requires current.analysis.Some?
    requires k < |tracks| && Eligible(current.id, tracks[k])
    ensures var c := Score(current.analysis.value, tracks[k], noise[k]);
            var r := RecommendNextTrack(current, tracks, count, noise);
            && (c !in r ==> forall s :: s in r ==> s.score >= c.score)
            && (count >= |tracks| ==> c in r)
  {
    var c := Score(current.analysis.value, tracks[k], noise[k]);
    var all := ScoreAll(current.analysis.value, current.id, tracks, noise);
    assert c in all;
    assert |all| <= |tracks|;
    assert RecommendNextTrack(current, tracks, count, noise) == SortByScore(all)[.. SliceEnd(|all|, count)];
    TopOfRanking(all, count, c);
  }

  /** A scored entry left out of the first `count` of the ranking scores no
      higher than any kept, and none is left out when `count` covers the
      list. */
  lemma TopOfRanking(all: seq<TrackScore>, count: int, c: TrackScore)
    requires c in all
    ensures var top := SortByScore(all)[.. SliceEnd(|all|, count)];
            && (c !in top ==> forall s :: s in top ==> s.score >= c.score)
            && (count >= |all| ==> c in top)
  {
    var ranked := SortByScore(all);
    SortKeepsEntries(all);
    TopOfSorted(ranked, SliceEnd(|all|, count), c);
  }

  /** In a descending list an entry outside a prefix scores no higher than
      any entry inside it. */
  lemma TopOfSorted(ranked: seq<TrackScore>, e: nat, c: TrackScore)
    requires SortedDesc(ranked) && e <= |ranked| && c in ranked
    ensures c !in ranked[..e] ==> forall s :: s in ranked[..e] ==> s.score >= c.score
    ensures e == |ranked| ==> c in ranked[..e]
  {
    var j :| 0 <= j < |ranked| && ranked[j] == c;
    if c !in ranked[..e] {
      assert j >= e;
      forall s | s in ranked[..e]
        ensures s.score >= c.score
      {
        var i :| 0 <= i < e && ranked[..e][i] == s;
        assert ranked[i] == s;
      }
    }
    if e == |ranked| {
      assert ranked[..e] == ranked;
    }
  }
}

=== FILE: track_analysis.dfy ===
/** The offline analysis of `trackAnalysis.ts`: tempo from onset intervals,
    a key label from the mean amplitude, a block-mean waveform, an overall
    energy and a fixed structural template. Every step reads only the first
    channel of the buffer. Square roots are not computed: the onset test is
    carried out on mean squares (`RmsComparison` shows it is the same test),
    and the overall RMS is an input constrained by its square. */
module TrackAnalysis {
  import opened JsNumber
  import opened Optional
  import opened Pcm

  datatype Label = Intro | Verse | Drop | Outro

  datatype Segment = Segment(startTime: real, endTime: real, kind: Label, energy: real)

  datatype AnalysisResult = AnalysisResult(
    bpm: int,
    key: string,
    waveform: Option<seq<real>>,
    energy: int,
    structure: seq<Segment>)

  // ---------------------------------------------------------------------
  // Sums over samples

  function SumSquares(s: seq<real>): (r: real)
    ensures r >= 0.0
  {
    if |s| == 0 then 0.0 else SumSquares(s[..|s| - 1]) + s[|s| - 1] * s[|s| - 1]
  }

  function AbsSum(s: seq<real>): (r: real)
    ensures r >= 0.0
  {
    if |s| == 0 then 0.0 else AbsSum(s[..|s| - 1]) + Abs(s[|s| - 1])
  }

  /** Mean of the squared samples; its square root is the RMS. */
  function MeanSquare(s: seq<real>): real
    requires |s| > 0
  {
    SumSquares(s) / |s| as real
  }

  /** Samples within full scale contribute at most one each. */
  lemma {:induction false} SumsBoundedByLength(s: seq<real>)
    requires forall k :: 0 <= k < |s| ==> -1.0 <= s[k] <= 1.0
    ensures SumSquares(s) <= |s| as real
    ensures AbsSum(s) <= |s| as real
  {
    if |s| > 0 {
      var last := s[|s| - 1];
      SumsBoundedByLength(s[..|s| - 1]);
      assert -1.0 <= last <= 1.0;
      SquareAtMostOne(last);
      assert SumSquares(s) == SumSquares(s[..|s| - 1]) + last * last;
      assert AbsSum(s) == AbsSum(s[..|s| - 1]) + Abs(last);
    }
  }

  lemma SquareAtMostOne(v: real)
    requires -1.0 <= v <= 1.0
    ensures v * v <= 1.0
  {
    var m := Abs(v);
    assert v * v == m * m;
    MulMonotone(m, 1.0, m);
    assert m * m <= m;
  }

  // ---------------------------------------------------------------------
  // Tempo

  const FrameSize: nat := 2048
  const HopSize: nat := 512

  /** Mean square of the frame of `FrameSize` samples starting at `i`. */
  function FrameMeanSquare(x: seq<real>, i: nat): real
    requires i + FrameSize <= |x|
  {
    SumSquares(x[i .. i + FrameSize]) / FrameSize as real
  }

  /** The onset test on mean squares: above 1.5 times the previous frame's
      RMS and above the absolute RMS floor 0.1, both squared. */
  predicate Exceeds(ms: real, prevMs: real)
  {
    ms > 2.25 * prevMs && ms > 0.01
  }

  /** For non-negative RMS values `e` (this frame) and `p` (previous frame)
      the test `e > 1.5 p && e > 0.1` is the test `Exceeds` on their
      squares. */
  lemma RmsComparison(e: real, p: real)
    requires e >= 0.0 && p >= 0.0
    ensures (e > 1.5 * p && e > 0.1) <==> Exceeds(e * e, p * p)
  {
    assert (1.5 * p) * (1.5 * p) == 2.25 * (p * p);
    SquareStrictMonotone(1.5 * p, e);
    SquareStrictMonotone(0.1, e);
    SquareStrictMonotone(e, 1.5 * p);
    SquareStrictMonotone(e, 0.1);
  }

  /** For non-negative reals, `a < b` exactly when `a * a < b * b`. */
  lemma SquareStrictMonotone(a: real, b: real)
    requires a >= 0.0 && b >= 0.0
    ensures a < b <==> a * a < b * b
  {
    if a < b {
      SquareBelow(a, b);
    } else {
      SquareAtLeast(a, b);
    }
  }

  lemma SquareBelow(a: real, b: real)
    requires 0.0 <= a < b
    ensures a * a < b * b
  {
    var aa, ab, bb := a * a, a * b, b * b;
    assert aa <= ab;
    assert ab < bb;
  }

  lemma SquareAtLeast(a: real, b: real)
    requires 0.0 <= b <= a
    ensures b * b <= a * a
  {
    var aa, ab, bb := a * a, a * b, b * b;
    assert bb <= ab;
    assert ab <= aa;
  }

  /** A frame the analysis loop visits: a multiple of the hop whose frame
      ends before the last sample (`i < length - FrameSize`). */
  predicate IsFrameStart(x: seq<real>, i: nat)
  {
    i % HopSize == 0 && i + FrameSize < |x|
  }

  /** The frame at `i` is an onset: it exceeds the previous frame, or
      silence before the first frame. */
  predicate IsOnset(x: seq<real>, i: nat)
    requires IsFrameStart(x, i)
  {
    Exceeds(FrameMeanSquare(x, i), if i == 0 then 0.0 else FrameMeanSquare(x, i - HopSize))
  }

  /** The frame loop of `detectBPM` from frame `i` on, with the previous frame's
      value carried along: the starts of the onset frames, in order. */
  function OnsetsFrom(x: seq<real>, i: nat, prevMs: real): seq<nat>
    decreases |x| - i
  {
    if i + FrameSize < |x| then
      var ms := FrameMeanSquare(x, i);
      (if Exceeds(ms, prevMs) then [i] else []) + OnsetsFrom(x, i + HopSize, ms)
    else []
  }

  predicate StrictlyIncreasing(s: seq<nat>)
  {
    forall a, b :: 0 <= a < b < |s| ==> s[a] < s[b]
  }

  lemma {:induction false} OnsetsFromExactly(x: seq<real>, i: nat, prevMs: real)
    requires i % HopSize == 0
    requires i == 0 ==> prevMs == 0.0
    requires i > 0 ==> i >= HopSize && i - HopSize + FrameSize < |x|
                       && prevMs == FrameMeanSquare(x, i - HopSize)
    ensures forall k: nat :: k in OnsetsFrom(x, i, prevMs) <==> (k >= i && IsFrameStart(x, k) && IsOnset(x, k))
    ensures StrictlyIncreasing(OnsetsFrom(x, i, prevMs))
    ensures forall a :: 0 <= a < |OnsetsFrom(x, i, prevMs)| ==> OnsetsFrom(x, i, prevMs)[a] >= i
    decreases |x| - i
  {
    var r := OnsetsFrom(x, i, prevMs);
    if i + FrameSize < |x| {
      var ms := FrameMeanSquare(x, i);
      var head: seq<nat> := if Exceeds(ms, prevMs) then [i] else [];
      var tail := OnsetsFrom(x, i + HopSize, ms);
      OnsetsFromExactly(x, i + HopSize, ms);
      assert r == head + tail;
      assert IsFrameStart(x, i);
      assert IsOnset(x, i) <==> Exceeds(ms, prevMs);
      forall k: nat
        ensures k in r <==> (k >= i && IsFrameStart(x, k) && IsOnset(x, k))
      {
        if k >= i && k % HopSize == 0 && k != i {
          assert k >= i + HopSize;
        }
      }
    }
  }

  /** The sample offsets of the onset frames. */
  function OnsetSamples(x: seq<real>): (r: seq<nat>)
    ensures forall k: nat :: k in r <==> IsFrameStart(x, k) && IsOnset(x, k)
    ensures StrictlyIncreasing(r)
  {
    OnsetsFromExactly(x, 0, 0.0);
    OnsetsFrom(x, 0, 0.0)
  }

  /** Onset timestamps in seconds: sample offset over sample rate. */
  function OnsetTimes(b: Buffer): (t: seq<real>)
    ensures |t| == |OnsetSamples(b.channelData)|
    ensures forall a, c :: 0 <= a < c < |t| ==> t[a] < t[c]
  {
    var o := OnsetSamples(b.channelData);
    var t := seq(|o|, j requires 0 <= j < |o| => o[j] as real / b.sampleRate);
    assert forall a, c :: 0 <= a < c < |t| ==> t[a] < t[c] by {
      forall a, c | 0 <= a < c < |t|
        ensures t[a] < t[c]
      {
        DivStrictMonotone(o[a] as real, o[c] as real, b.sampleRate);
      }
    }
    t
  }

  lemma DivStrictMonotone(x: real, y: real, d: real)
    requires x < y && d > 0.0
    ensures x / d < y / d
  {
    var a, b := x / d, y / d;
    assert a * d == x && b * d == y;
    assert (b - a) * d == y - x;
    PositiveFactor(b - a, d);
  }

  lemma PositiveFactor(a: real, d: real)
    requires a * d > 0.0 && d > 0.0
    ensures a > 0.0
  {
  }

  /** Gaps between successive onsets. */
  function Intervals(t: seq<real>): (iv: seq<real>)
    requires |t| > 0
    ensures |iv| == |t| - 1
    ensures (forall a, c :: 0 <= a < c < |t| ==> t[a] < t[c]) ==>
              forall j :: 0 <= j < |iv| ==> iv[j] > 0.0
  {
    seq(|t| - 1, j requires 0 <= j < |t| - 1 => t[j + 1] - t[j])
  }

  /** Each gap rounded to tenths of a second, held as a whole number of
      tenths (the histogram key `Math.round(interval * 10) / 10`). */
  function Tenths(iv: seq<real>): (ts: seq<int>)
    ensures |ts| == |iv|
    ensures forall j :: 0 <= j < |iv| ==> iv[j] * 10.0 - 0.5 < ts[j] as real <= iv[j] * 10.0 + 0.5
  {
    seq(|iv|, j requires 0 <= j < |iv| => Round(iv[j] * 10.0))
  }

  /** How often a key occurs in the histogram. */
  function Count(ts: seq<int>, t: int): nat
  {
    multiset(ts)[t]
  }

  /** A key whose string form is a canonical array index: a whole,
      non-negative number of seconds below 2^32 - 1. Such keys are
      enumerated before all others, in ascending order. */
  predicate IsIndexKey(t: int)
  {
    t >= 0 && t % 10 == 0 && t / 10 < 0xFFFF_FFFF
  }

  predicate Ascending(s: seq<int>)
  {
    forall a, b :: 0 <= a < b < |s| ==> s[a] < s[b]
  }

  /** The histogram's keys as the object holds them: index keys ascending,
      the other keys in order of first insertion. */
  datatype Keys = Keys(index: seq<int>, named: seq<int>)

  function InsertAscending(s: seq<int>, t: int): (r: seq<int>)
    requires Ascending(s) && t !in s
    ensures Ascending(r)
    ensures forall u :: u in r <==> u in s || u == t
    ensures |r| == |s| + 1
  {
    if |s| == 0 then [t]
    else if t < s[0] then [t] + s
    else
      var rest := InsertAscending(s[1..], t);
      assert forall u :: u in s[1..] ==> s[0] < u;
      assert s[0] < t by {
        assert t != s[0];
      }
      assert forall j :: 0 <= j < |rest| ==> s[0] < rest[j] by {
        forall j | 0 <= j < |rest|
          ensures s[0] < rest[j]
        {
          assert rest[j] in rest;
        }
      }
      [s[0]] + rest
  }

  function KeysOf(ts: seq<int>): (k: Keys)
    ensures Ascending(k.index)
    ensures forall t :: t in k.index ==> IsIndexKey(t)
    ensures forall t :: t in k.named ==> !IsIndexKey(t)
    ensures forall t :: t in k.index || t in k.named <==> t in ts
    decreases |ts|
  {
    if |ts| == 0 then Keys([], [])
    else
      var k := KeysOf(ts[..|ts| - 1]);
      var t := ts[|ts| - 1];
      assert forall u :: u in ts <==> u in ts[..|ts| - 1] || u == t by {
        assert ts == ts[..|ts| - 1] + [t];
      }
      if t in k.index || t in k.named then k
      else if IsIndexKey(t) then k.(index := InsertAscending(k.index, t))
      else k.(named := k.named + [t])
  }

  /** The order in which `Object.entries` visits the histogram. */
  function EnumerationOrder(ts: seq<int>): (keys: seq<int>)
    ensures forall t :: t in keys <==> t in ts
  {
    KeysOf(ts).index + KeysOf(ts).named
  }

  /** The `forEach` over the entries: a key replaces the best one only when
      its count is strictly greater, so the first most common key wins. */
  function PickModal(keys: seq<int>, ts: seq<int>, maxCount: nat, best: int): int
  {
    if |keys| == 0 then best
    else if Count(ts, keys[0]) > maxCount then PickModal(keys[1..], ts, Count(ts, keys[0]), keys[0])
    else PickModal(keys[1..], ts, maxCount, best)
  }

  /** `r` occurs in `keys`, and every key before its first occurrence is
      strictly less common. */
  predicate FirstMostCommonAt(keys: seq<int>, ts: seq<int>, r: int)
  {
    exists p :: 0 <= p < |keys| && keys[p] == r && forall j :: 0 <= j < p ==> Count(ts, keys[j]) < Count(ts, r)
  }

  lemma {:induction false} PickModalSpec(keys: seq<int>, ts: seq<int>, maxCount: nat, best: int)
    ensures var r := PickModal(keys, ts, maxCount, best);
            || (r == best && forall k :: k in keys ==> Count(ts, k) <= maxCount)
            || (&& Count(ts, r) > maxCount
                && (forall k :: k in keys ==> Count(ts, k) <= Count(ts, r))
                && FirstMostCommonAt(keys, ts, r))
  {
    if |keys| > 0 {
      var c := Count(ts, keys[0]);
      var rest := keys[1..];
      assert forall k :: k in keys <==> k == keys[0] || k in rest by {
        assert keys == [keys[0]] + rest;
      }
      var r := PickModal(keys, ts, maxCount, best);
      if c > maxCount {
        PickModalSpec(rest, ts, c, keys[0]);
        if r == keys[0] && forall k :: k in rest ==> Count(ts, k) <= c {
          assert keys[0] == r;
        } else {
          ShiftFirstMostCommon(keys, ts, r);
        }
      } else {
        PickModalSpec(rest, ts, maxCount, best);
        if r != best || exists k :: k in rest && Count(ts, k) > maxCount {
          ShiftFirstMostCommon(keys, ts, r);
        }
      }
    }
  }

  lemma ShiftFirstMostCommon(keys: seq<int>, ts: seq<int>, r: int)
    requires |keys| > 0 && FirstMostCommonAt(keys[1..], ts, r) && Count(ts, keys[0]) < Count(ts, r)
    ensures FirstMostCommonAt(keys, ts, r)
  {
    var rest := keys[1..];
    var p :| 0 <= p < |rest| && rest[p] == r && forall j :: 0 <= j < p ==> Count(ts, rest[j]) < Count(ts, r);
    assert keys[p + 1] == r;
    forall j | 0 <= j < p + 1
      ensures Count(ts, keys[j]) < Count(ts, r)
    {
      if j > 0 {
        assert keys[j] == rest[j - 1];
      }
    }
  }

  /** The default interval, 0.5 s, in tenths. */
  const DefaultTenths: int := 5

  /** The chosen interval (in tenths). */
  function ModalTenths(ts: seq<int>): int
  {
    PickModal(EnumerationOrder(ts), ts, 0, DefaultTenths)
  }

  /** With no intervals the choice is the 0.5 s default; otherwise it is an
      interval that occurs at least as often as every other one, and no key
      the engine enumerates before it is as common. */
  lemma ModalIsMostCommon(ts: seq<int>)
    ensures |ts| == 0 ==> ModalTenths(ts) == DefaultTenths
    ensures |ts| > 0 ==>
              && ModalTenths(ts) in ts
              && forall t :: t in ts ==> Count(ts, t) <= Count(ts, ModalTenths(ts))
    ensures |ts| > 0 ==> FirstMostCommonAt(EnumerationOrder(ts), ts, ModalTenths(ts))
  {
    var keys := EnumerationOrder(ts);
    PickModalSpec(keys, ts, 0, DefaultTenths);
    if |ts| > 0 {
      assert ts[0] in keys;
      assert Count(ts, ts[0]) > 0;
    }
  }

  /** `Math.max(60, Math.min(180, Math.round(60 / (tenths / 10))))`; a zero
      interval divides to +Infinity, which the clamp turns into 180. */
  function BpmFromTenths(t: int): (bpm: int)
    ensures 60 <= bpm <= 180
    ensures t == 0 ==> bpm == 180
    ensures t != 0 && 60 <= Round(600.0 / t as real) <= 180 ==> bpm == Round(600.0 / t as real)
  {
    if t == 0 then 180
    else
      var raw := Round(600.0 / t as real);
      if raw < 60 then 60 else if raw > 180 then 180 else raw
  }

  const DefaultBpm: int := 120

  /** The tempo estimate, always in `[60, 180]`, the 120 default when fewer
      than two onsets were found. */
  function DetectBPM(b: Buffer): (bpm: int)
    ensures 60 <= bpm <= 180
    ensures |OnsetTimes(b)| < 2 ==> bpm == DefaultBpm
  {
    var t := OnsetTimes(b);
    if |t| < 2 then DefaultBpm
    else BpmFromTenths(ModalTenths(Tenths(Intervals(t))))
  }

  /** With two or more onsets the tempo comes from a most common rounded
      interval between successive onsets, and those intervals are positive. */
  lemma DetectBpmFromMostCommonInterval(b: Buffer)
    requires |OnsetTimes(b)| >= 2
    ensures var iv := Intervals(OnsetTimes(b));
            var ts := Tenths(iv);
            && |iv| > 0
            && (forall j :: 0 <= j < |iv| ==> iv[j] > 0.0)
            && exists t :: t in ts
                           && (forall u :: u in ts ==> Count(ts, u) <= Count(ts, t))
                           && DetectBPM(b) == BpmFromTenths(t)
  {
    var ts := Tenths(Intervals(OnsetTimes(b)));
    ModalIsMostCommon(ts);
    assert ModalTenths(ts) in ts;
  }

  // ---------------------------------------------------------------------
  // Key

  const KeyNames: seq<string> := ["C", "C#", "D", "D#", "E", "F", "F#", "G", "G#", "A", "A#", "B"]
  const ModeNames: seq<string> := ["maj", "min"]

  /** Every label `detectKey` can produce: a pitch class and a mode. */
  function AllKeyLabels(): set<string>
  {
    set k, m | 0 <= k < |KeyNames| && 0 <= m < |ModeNames| :: KeyNames[k] + ModeNames[m]
  }

  function MeanAbs(x: seq<real>): (m: real)
    requires |x| > 0
    ensures m >= 0.0
  {
    AbsSum(x) / |x| as real
  }

  /** Pitch class `floor(mean * 1000) % 12`; for the non-negative mean it
      is the ordinary remainder and lies in `[0, 12)`. */
  function KeyIndex(mean: real): (k: int)
    requires mean >= 0.0
    ensures 0 <= k < 12
    ensures k == Floor(mean * 1000.0) % 12
  {
    RemInt(Floor(mean * 1000.0), 12)
  }

  /** Mode `floor(mean * 10000) % 2`, in `[0, 2)`. */
  function ModeIndex(mean: real): (m: int)
    requires mean >= 0.0
    ensures 0 <= m < 2
    ensures m == Floor(mean * 10000.0) % 2
  {
    RemInt(Floor(mean * 10000.0), 2)
  }

  /** The key label: one of the twelve pitch classes followed by a mode. */
  function DetectKey(b: Buffer): (key: string)
    ensures key in AllKeyLabels()
  {
    var mean := MeanAbs(b.channelData);
    var k := KeyIndex(mean);
    var m := ModeIndex(mean);
    assert KeyNames[k] + ModeNames[m] in AllKeyLabels();
    KeyNames[k] + ModeNames[m]
  }

  // ---------------------------------------------------------------------
  // Waveform

  const DefaultWaveformLength: nat := 1000

  lemma BlockInBounds(n: nat, samples: nat, i: nat)
    requires 0 < samples <= n && i < samples
    ensures i * (n / samples) + n / samples <= n
  {
    var b := n / samples;
    assert (i + 1) * b <= samples * b by {
      MulLe(i + 1, samples, b);
    }
    assert samples * b <= n;
  }

  lemma MulLe(x: nat, y: nat, c: nat)
    requires x <= y
    ensures x * c <= y * c
  {
  }

  /** Block `i` of the reduction: `floor(n / samples)` samples starting at
      `i` times that size. It always lies inside the signal. */
  function Block(x: seq<real>, samples: nat, i: nat): (s: seq<real>)
    requires 0 < samples <= |x| && i < samples
    ensures |s| == |x| / samples
  {
    var b := |x| / samples;
    BlockInBounds(|x|, samples, i);
    x[i * b .. i * b + b]
  }

  /** Waveform entry `i`: the mean absolute amplitude of block `i`. */
  function Level(x: seq<real>, samples: nat, i: nat): real
    requires 0 < samples <= |x| && i < samples
  {
    AbsSum(Block(x, samples, i)) / (|x| / samples) as real
  }

  /** The block-mean reduction into `samples` entries, entry `i` the mean
      absolute amplitude of block `i`. The inner loop's end is the code's
      `min(start + blockSize, length)`, which never cuts a block short. When
      the signal is shorter than `samples` the block size is 0 and every
      entry is `0 / 0`, i.e. NaN; `None` stands for that all-NaN array. */
  method GenerateWaveform(x: seq<real>, samples: nat) returns (w: Option<seq<real>>)
    ensures w.None? <==> 0 < samples && |x| < samples
    ensures w.Some? ==> |w.value| == samples
    ensures w.Some? ==> forall i :: 0 <= i < samples ==> w.value[i] == Level(x, samples, i)
  {
    if samples == 0 {
      return Some([]);
    }
    BlockSizeZero(|x|, samples);
    if |x| / samples == 0 {
      return None;
    }
    var levels := BlockLevels(x, samples);
    w := Some(levels);
  }

  /** The outer loop, for a block size of at least one. */
  method BlockLevels(x: seq<real>, samples: nat) returns (levels: seq<real>)
    requires 0 < samples <= |x|
    ensures |levels| == samples
    ensures forall i :: 0 <= i < samples ==> levels[i] == Level(x, samples, i)
  {
    var b := |x| / samples;
    levels := [];
    var i := 0;
    while i < samples
      invariant 0 <= i <= samples && |levels| == i
      invariant forall k :: 0 <= k < i ==> levels[k] == Level(x, samples, k)
    {
      var start := i * b;
      BlockInBounds(|x|, samples, i);
      var end := if start + b < |x| then start + b else |x|;
      var sum := BlockSum(x, start, end);
      LevelOfBlockSum(x, samples, i, end, sum);
      levels := levels + [sum / b as real];
      i := i + 1;
    }
  }

  lemma BlockSizeZero(n: nat, samples: nat)
    requires samples > 0
    ensures n / samples == 0 <==> n < samples
  {
  }

  /** The loop body's entry: the block sum over the clamped end, divided by
      the block size, is the level of block `i`. */
  lemma LevelOfBlockSum(x: seq<real>, samples: nat, i: nat, end: nat, sum: real)
    requires 0 < samples <= |x| && i < samples
    requires var b := |x| / samples;
             && end == (if i * b + b < |x| then i * b + b else |x|)
             && i * b <= end && sum == AbsSum(x[i * b .. end])
    ensures sum / (|x| / samples) as real == Level(x, samples, i)
  {
    BlockStart(x, samples, i);
  }

  /** Block `i` begins at `i * blockSize` and fits before the end. */
  lemma BlockStart(x: seq<real>, samples: nat, i: nat)
    requires 0 < samples <= |x| && i < samples
    ensures i * (|x| / samples) + |x| / samples <= |x|
    ensures x[i * (|x| / samples) .. i * (|x| / samples) + |x| / samples] == Block(x, samples, i)
  {
    BlockInBounds(|x|, samples, i);
  }

  /** The inner loop: the sum of absolute amplitudes over `x[start .. end]`. */
  method BlockSum(x: seq<real>, start: nat, end: nat) returns (sum: real)
    requires start <= end <= |x|
    ensures sum == AbsSum(x[start .. end])
  {
    sum := 0.0;
    var j := start;
    while j < end
      invariant start <= j <= end
      invariant sum == AbsSum(x[start .. j])
    {
      AbsSumExtend(x, start, j);
      sum := sum + Abs(x[j]);
      j := j + 1;
    }
  }

  lemma AbsSumExtend(x: seq<real>, start: nat, j: nat)
    requires start <= j < |x|
    ensures AbsSum(x[start .. j + 1]) == AbsSum(x[start .. j]) + Abs(x[j])
  {
    assert x[start .. j + 1][.. j - start] == x[start .. j];
  }

  /** For a signal within full scale every waveform entry lies in `[0, 1]`. */
  lemma WaveformEntryBounded(x: seq<real>, samples: nat, i: nat)
    requires 0 < samples <= |x| && i < samples
    requires forall k :: 0 <= k < |x| ==> -1.0 <= x[k] <= 1.0
    ensures 0.0 <= Level(x, samples, i) <= 1.0
  {
    var s := Block(x, samples, i);
    var b := (|x| / samples) as real;
    assert b >= 1.0;
    assert forall k :: 0 <= k < |s| ==> -1.0 <= s[k] <= 1.0 by {
      BlockInBounds(|x|, samples, i);
      forall k | 0 <= k < |s|
        ensures -1.0 <= s[k] <= 1.0
      {
        assert s[k] == x[i * (|x| / samples) + k];
      }
    }
    SumsBoundedByLength(s);
    DivAtMostOne(AbsSum(s), b);
  }

  lemma DivAtMostOne(a: real, b: real)
    requires 0.0 <= a <= b && b > 0.0
    ensures 0.0 <= a / b <= 1.0
  {
    assert (a / b) * b == a;
  }

  // ---------------------------------------------------------------------
  // Energy

  /** `Math.round(rms * 100)`: the nearest whole percent of the RMS, with
      the RMS (`sqrt` of the mean square) supplied. */
  function CalculateEnergy(b: Buffer, rms: real): (energy: int)
    requires rms >= 0.0 && rms * rms == MeanSquare(b.channelData)
    ensures energy >= 0
    ensures rms * 100.0 - 0.5 < energy as real <= rms * 100.0 + 0.5
  {
    Round(rms * 100.0)
  }

  /** A signal within full scale has energy at most 100. */
  lemma EnergyAtMostHundred(b: Buffer, rms: real)
    requires rms >= 0.0 && rms * rms == MeanSquare(b.channelData)
    requires forall k :: 0 <= k < |b.channelData| ==> -1.0 <= b.channelData[k] <= 1.0
    ensures CalculateEnergy(b, rms) <= 100
  {
    var x := b.channelData;
    SumsBoundedByLength(x);
    DivAtMostOne(SumSquares(x), |x| as real);
    assert rms * rms <= 1.0;
    SquareStrictMonotone(1.0, rms);
    assert rms <= 1.0;
  }

  // ---------------------------------------------------------------------
  // Structure

  /** The fixed template: intro up to min(15%, 30 s), verse up to 40%, drop
      to 60%, verse up to the outro, outro over the last min(15%, 30 s).
      Each part is emitted only when it has positive length. */
  function InferStructure(duration: real, overallEnergy: real): (segs: seq<Segment>)
    ensures duration <= 0.0 ==> segs == []
    ensures duration > 0.0 ==>
              && |segs| == 5
              && segs[0].kind == Intro && segs[1].kind == Verse && segs[2].kind == Drop
              && segs[3].kind == Verse && segs[4].kind == Outro
              && segs[0].startTime == 0.0 && segs[4].endTime == duration
              && (forall k :: 0 <= k < 4 ==> segs[k].endTime == segs[k + 1].startTime)
              && (forall k :: 0 <= k < 5 ==> segs[k].startTime < segs[k].endTime)
              && segs[0].endTime - segs[0].startTime == Min(duration * 0.15, 30.0)
              && segs[4].endTime - segs[4].startTime == Min(duration * 0.15, 30.0)
              && segs[2].startTime == duration * 0.4 && segs[2].endTime == duration * 0.6
              && segs[0].energy == overallEnergy * 0.6 && segs[1].energy == overallEnergy * 0.8
              && segs[2].energy == overallEnergy * 1.2 && segs[3].energy == overallEnergy * 0.8
              && segs[4].energy == overallEnergy * 0.5
  {
    var introEnd := Min(duration * 0.15, 30.0);
    var outroStart := Max(duration * 0.85, duration - 30.0);
    var dropStart := duration * 0.4;
    var dropEnd := duration * 0.6;
    var intro := if introEnd > 0.0 then [Segment(0.0, introEnd, Intro, overallEnergy * 0.6)] else [];
    var verse1 := if dropStart > introEnd then [Segment(introEnd, dropStart, Verse, overallEnergy * 0.8)] else [];
    var drop := if dropEnd > dropStart then [Segment(dropStart, dropEnd, Drop, overallEnergy * 1.2)] else [];
    var verse2 := if outroStart > dropEnd then [Segment(dropEnd, outroStart, Verse, overallEnergy * 0.8)] else [];
    var outro := if duration > outroStart then [Segment(outroStart, duration, Outro, overallEnergy * 0.5)] else [];
    intro + verse1 + drop + verse2 + outro
  }

  /** The template tiles `[0, duration]` with no gap and no overlap: the
      lengths of the segments add up to the duration. */
  lemma StructureCoversDuration(duration: real, e: real)
    requires duration > 0.0
    ensures var s := InferStructure(duration, e);
            (s[0].endTime - s[0].startTime) + (s[1].endTime - s[1].startTime) + (s[2].endTime - s[2].startTime)
            + (s[3].endTime - s[3].startTime) + (s[4].endTime - s[4].startTime) == duration
  {
  }

  // ---------------------------------------------------------------------
  // The whole pipeline

  /** The progress reported before the first step and after each of the
      five steps. */
  const ProgressMarks: seq<real> := [0.1, 0.3, 0.5, 0.7, 0.9, 1.0]

  /** Runs the five steps in order, reporting progress after each; the
      reports rise strictly and end at 1. */
  method AnalyzeTrack(b: Buffer, rms: real) returns (result: AnalysisResult, progress: seq<real>)
    requires rms >= 0.0 && rms * rms == MeanSquare(b.channelData)
    ensures |progress| == 6 && progress[5] == 1.0
    ensures forall i :: 0 < i < |progress| ==> progress[i - 1] < progress[i]
    ensures 60 <= result.bpm <= 180
    ensures result.key in AllKeyLabels()
    ensures result.waveform.Some? <==> |b.channelData| >= DefaultWaveformLength
    ensures result.waveform.Some? ==> |result.waveform.value| == DefaultWaveformLength
    ensures result.energy >= 0
    ensures |result.structure| == 5 && result.structure[4].endTime == Duration(b)
    ensures result.bpm == DetectBPM(b) && result.key == DetectKey(b)
    ensures result.energy == CalculateEnergy(b, rms)
    ensures result.structure == InferStructure(Duration(b), result.energy as real)
    ensures result.waveform.Some? ==>
              forall i :: 0 <= i < DefaultWaveformLength ==>
                result.waveform.value[i] == Level(b.channelData, DefaultWaveformLength, i)
  {
    var bpm := DetectBPM(b);
    var key := DetectKey(b);
    var waveform := GenerateWaveform(b.channelData, DefaultWaveformLength);
    var energy := CalculateEnergy(b, rms);
    var structure := InferStructure(Duration(b), energy as real);
    result := AnalysisResult(bpm, key, waveform, energy, structure);
    progress := ProgressMarks;
  }
}
